=== FILE: README.md ===
# Kerko extractors, modelled in Dafny

Kerko builds a search index from a Zotero library. The module
`src/kerko/extractors.py` turns one Zotero item into the fields of a search
document. An *extractor* reads the item, the library context (item types,
field and creator-type schemas, collections) and a field spec. It returns a
Python value, or `None` when there is nothing to store. `extract_and_store`
then encodes a non-`None` value, either as one value or element by element,
and stores it under the spec's key.

This project models that module as pure Dafny functions:

- `PyValue` models the Python values extractors return: `None`, booleans,
  integers, strings, lists, tuples, sets and dicts. It also models truthiness,
  iteration and `dict.fromkeys` de-duplication.
- `PyStr` and `PyInt` model the string and integer built-ins the extractors
  use: `strip`, `join`, `split`, `str(int)`, format padding, `int(str)` and
  truncating division.
- `Sorting` models a stable sort by a key, as used for `sorted(..., key=sort_normalize)`.
- `Zotero` models the item record, the library context and the
  environment of external helpers.
- `ItemExtractors` models the item and item-data extractors: title, type
  label, fields, creator types, creators, collection names, links, app URL,
  relations, type facet and link facet.
- `TagExtractors` models tag sets and tag text.
- `LanguageExtraction` models language extraction and normalization.
- `ChildExtractors` models child attachments and notes: files, linked URIs,
  full text, note text, raw notes and relations found in notes.
- `CollectionExtractors` models path expansion, the collection facet tree
  and collection membership.
- `DateExtractors` models the year, the year facet and the date sort key.
- `SortKeyExtractors` models the data, title and creator sort keys.
- `Extractors` models the extractor tree: leaves, `TransformerExtractor`,
  `MultiExtractor` and `ChainExtractor`, together with encoding and
  `extract_and_store`. The tree is evaluated by `Extractors.Eval`, given
  the values of the leaf extractors. `Extractors.Extract` is `Eval` with
  the leaf values of one item, so every lemma stated over `Eval` for any
  leaf values holds for `Extract`. Two leaves use the corrected definitions
  of "## Findings" below rather than the code as written:
  `InCollectionExtractor` and `SortItemDataExtractor`. The lemmas
  `Extractors.MembershipLeafAgreesWithSource` and
  `Extractors.SortDataLeafAgreesWithSource` state where the two agree.

Regular expressions, HTML tag stripping, sort normalization, the partial-date
parser, the Zotero-URI finders and the order in which Python iterates a set
are not computed. They are parameters of the model: function-valued fields
of `Zotero.Env`, `Zotero.LibraryContext`, `TagExtractors.TagFilter`,
`ChildExtractors.TagGate` and `LanguageExtraction.LanguageConfig`.

`CreatorsExtractor` (lines 344-361) adds a creator's
display name *and*, independently, the first/last-name combinations. It does
not add one "or else" the other. A creator with first name "Jane", last name
"Doe" and no display name therefore contributes exactly two entries, "Jane
Doe" and "Doe, Jane" (`ItemExtractors.CreatorWithBothNames`).

## Model

All source paths are in `src/kerko/extractors.py`.

| member | source | states |
|---|---|---|
| Extractors.Encode | src/kerko/extractors.py:25-32 | Single encoding applies the spec's encoder to the value. Multiple encoding fails exactly when the value is not iterable. Otherwise it is the list of the encoded elements, in iteration order. |
| Extractors.StoreValue | src/kerko/extractors.py:103-109 | A `None` extraction leaves the document unchanged. Otherwise only the spec's key changes, and it is set to the encoded value. A type error occurs exactly when a boolean or integer is encoded element by element. No other key is added, removed or changed. |
| Extractors.StoreValueIdempotent | src/kerko/extractors.py:103-109 | Storing a value into the document it was already stored in changes nothing. |
| Extractors.ExtractAndStoreIdempotent | src/kerko/extractors.py:103-109 | Extracting and storing twice gives the same document as doing it once. |
| Extractors.ApplyTransformers | src/kerko/extractors.py:139-143 | With `skip_none_value`, `None` passes through untouched. An empty transformer list is the identity. Otherwise the result is the left-to-right composition of the transformers. |
| Extractors.ComposeAppend | src/kerko/extractors.py:139-143 | Applying the transformer list a + b equals applying a and then b. |
| Extractors.TransformerValue | src/kerko/extractors.py:139-147 | A transformer that does not skip None is well formed over a well-formed delegate, and it applies its transformers in order to the delegate's value. |
| Extractors.TransformerFusion | src/kerko/extractors.py:139-147 | Two nested non-skipping transformer extractors equal one transformer extractor with the concatenated transformer lists. |
| Extractors.TransformerSkipsNone | src/kerko/extractors.py:139-147 | A skipping transformer yields `None` exactly when its inner extractor does. Otherwise it yields the composition applied to the inner value. |
| Extractors.FirstNonNone | src/kerko/extractors.py:184-191 | The result is `None` iff every value is `None`. Otherwise it is the value at the first non-`None` position. |
| Extractors.FirstNonNoneAppend | src/kerko/extractors.py:184-191 | Over a + b, the first non-`None` value is a's when a has one, and b's otherwise. |
| Extractors.ChainFirstNonNone | src/kerko/extractors.py:184-191 | A chain yields `None` iff every child yields `None`. Otherwise it yields some child's value, and every earlier child yields `None`. |
| Extractors.ChainIgnoresLaterChildren | src/kerko/extractors.py:184-191 | Once child i yields a value, the chain gives the same result as the chain cut after child i. |
| Extractors.ChainOfChains | src/kerko/extractors.py:184-191 | A chain of a + b equals a chain of the two chains a and b. |
| Extractors.FlattenFirstNonNone | src/kerko/extractors.py:184-191 | The first non-`None` value of a + b is the first non-`None` value of the pair formed by the firsts of a and of b. |
| Extractors.Contribution | src/kerko/extractors.py:164-167 | A non-string iterable contributes its elements. Any other truthy value contributes itself. A falsy value contributes nothing. |
| Extractors.Contributions | src/kerko/extractors.py:159-168 | A value is accumulated iff some child's contribution holds it. Nothing is accumulated iff every contribution is empty. |
| Extractors.ContributionsAppend | src/kerko/extractors.py:159-168 | Accumulating over a + b concatenates the accumulations of a and of b. |
| Extractors.Accumulate | src/kerko/extractors.py:159-168 | The result is `None` iff nothing is contributed. Otherwise it is the list of all contributions, in child order. |
| Extractors.MultiAccumulates | src/kerko/extractors.py:159-168 | A multi extractor yields `None` iff no child contributes anything. Otherwise it yields the concatenated contributions of its children. |
| Extractors.MultiAppend | src/kerko/extractors.py:159-168 | When both parts yield lists, the multi extractor over a + b yields the concatenation of the two lists. |
| Extractors.Eval | src/kerko/extractors.py:139-191 | An empty chain or multi extractor yields `None`. A skipping transformer over a `None` inner value yields `None`. A multi extractor yields `None` or a list. |
| Extractors.ExtractOfLeaf | src/kerko/extractors.py:96-101 | A leaf extractor is well formed and extracts exactly what its own `extract` computes on the item. |
| Extractors.MembershipLeafAgreesWithSource | src/kerko/extractors.py:752-766 | The tree's membership leaf agrees with the code as written whenever subcollections are checked. |
| Extractors.SortDataLeafAgreesWithSource | src/kerko/extractors.py:843-845 | The tree's data sort-key leaf agrees with the code as written whenever the field is present. |
| Extractors.EvalAll | src/kerko/extractors.py:161-163 | The children are evaluated one by one, each as the extractor it is. |
| Extractors.EvalAllAppend | src/kerko/extractors.py:161-163 | Evaluating children a + b concatenates the evaluations of a and of b. |
| Extractors.ChainValue | src/kerko/extractors.py:184-191 | A chain of same-format children is well formed, and its value is the first non-`None` value among its children's results. |
| Extractors.MultiValue | src/kerko/extractors.py:159-168 | A multi extractor over same-format children is well formed, and its value accumulates its children's results. |
| ItemExtractors.ItemMember | src/kerko/extractors.py:208-209 | Asking for "key" gives the item key. Any other member is `None` iff it is absent or `None`, and a present member gives its own value. |
| ItemExtractors.DataMember | src/kerko/extractors.py:215-216 | The result is `None` iff the data field is absent. Otherwise it is the field's string. |
| ItemExtractors.Title | src/kerko/extractors.py:229-236 | Notes, annotations and items of an unknown or missing type get "". A non-empty title is the value of one of the item's fields. |
| ItemExtractors.TitleIsFirstSchemaField | src/kerko/extractors.py:229-236 | For other typed items, the title is the value of the first field in the type's schema. |
| ItemExtractors.TypeLabel | src/kerko/extractors.py:262-268 | A label is returned iff the item has a type the library knows, and it is that type's label. |
| ItemExtractors.PresentFields | src/kerko/extractors.py:279 | A schema entry is retained iff its field is present in the item. |
| ItemExtractors.FieldsOf | src/kerko/extractors.py:274-283 | The result is not `None` iff the item's type has a field schema. It is then the metadata of the present fields, in schema order. |
| ItemExtractors.FieldsOfMembers | src/kerko/extractors.py:276-280 | The retained metadata is exactly that of the schema entries whose field the item has. |
| ItemExtractors.UsedCreatorTypes | src/kerko/extractors.py:325-331 | A creator-type entry is retained iff some creator of the item has that type. |
| ItemExtractors.CreatorTypesOf | src/kerko/extractors.py:320-338 | The result is not `None` iff the type is known and at least one of its creator types is used. It then lists the metadata of every used entry, one per entry, in the order of the used entries. It lists nothing else. |
| ItemExtractors.UsedCreatorTypesOrder | src/kerko/extractors.py:325-331 | The used entries keep their schema order: of any two, the earlier comes from an earlier schema position. |
| ItemExtractors.UnknownTypeHasNoMetadata | src/kerko/extractors.py:229-338 | An item without a type has an empty title and no label, fields or creator types. |
| ItemExtractors.GivenNames | src/kerko/extractors.py:350-360 | The given-name entries are empty iff both the first and the last name are empty. |
| ItemExtractors.Creators | src/kerko/extractors.py:344-361 | The result is `None` iff no creator yields a name. Otherwise it is a string. |
| ItemExtractors.CreatorsSplit | src/kerko/extractors.py:344-361 | Splitting the result on the record separator gives back every creator name, in order. |
| ItemExtractors.CreatorWithBothNames | src/kerko/extractors.py:350-356 | A creator with both names and no display name gives "first last" then "last, first". |
| ItemExtractors.CreatorDisplayNameFirst | src/kerko/extractors.py:347-349 | A creator's display name, de-tagged and stripped, comes first among its entries. |
| Sorting.SortBy | src/kerko/extractors.py:374 | `sorted(..., key=sort_normalize)`: the result is ordered by the key and is a permutation of the input. |
| Sorting.SortByMembers | src/kerko/extractors.py:374 | Sorting keeps exactly the given elements and the length. |
| Sorting.SortByDistinct | src/kerko/extractors.py:374 | Sorting a list without repetitions gives a list without repetitions. |
| ItemExtractors.KnownCollectionNames | src/kerko/extractors.py:369-373 | A name is collected iff it is the non-empty stripped name of one of the item's known collections. |
| ItemExtractors.CollectionNames | src/kerko/extractors.py:367-374 | The result is `None` iff no collection of the item has a known non-empty name. |
| ItemExtractors.CollectionNamesSplit | src/kerko/extractors.py:367-374 | The joined names split back into a list that is sorted by the sort key, holds distinct names and holds exactly the collected names. |
| ItemExtractors.LinkHref | src/kerko/extractors.py:294-298 | An href is returned iff the link exists, has the wanted type and has an href. The result is that href. |
| ItemExtractors.WebItemUrl | src/kerko/extractors.py:294-305 | A URL is returned iff the item has an "alternate" link of type "text/html" with an href. It is that href. |
| ItemExtractors.AppItemUrl | src/kerko/extractors.py:311-314 | Every URI starts with "zotero://select/" and ends with "/items/" and the item key. It continues with "groups/" and the library id iff the library is a group, and with "library" otherwise. |
| ItemExtractors.LibraryPlace | src/kerko/extractors.py:312-313 | The library segment starts with "groups/" iff the library is a group, and then holds the library id. Otherwise it is "library". |
| ItemExtractors.AppItemUrlInjective | src/kerko/extractors.py:311-314 | Within one library, two items with the same application URI have the same key. |
| ItemExtractors.AppItemUrlEndsWithKey | src/kerko/extractors.py:311-314 | The app URL is longer than the item key and ends with it. |
| ItemExtractors.RelationsOf | src/kerko/extractors.py:251-256 | A missing predicate gives an empty list. A single non-empty relation becomes a one-element list, and an empty one is returned as the empty string. A list of relations is returned as it is. |
| ItemExtractors.TypeFacet | src/kerko/extractors.py:779-784 | The result is `None` iff the item has no type. Otherwise it is the pair (type, label): the library's label for a known type, and the type itself for an unknown one. |
| ItemExtractors.HasLinkFacet | src/kerko/extractors.py:815-816 | The result is always a boolean. It is true iff the field holds a non-space character. |
| TagExtractors.TagTexts | src/kerko/extractors.py:396-397 | Each tag is read as its stripped text, in item order. |
| TagExtractors.KeptTags | src/kerko/extractors.py:398-403 | A tag is kept iff it is non-empty, matches the include pattern when there is one, and does not match the exclude pattern when there is one. |
| TagExtractors.TagSet | src/kerko/extractors.py:394-404 | The result is `None` or a non-empty set of strings. A text is in the set iff it is the stripped text of a tag the filter keeps. |
| TagExtractors.TagsText | src/kerko/extractors.py:410-412 | The result is `None` iff the tag set is `None`. Otherwise it is a string. |
| TagExtractors.TagsTextSplit | src/kerko/extractors.py:410-412 | The joined tags split back into a sorted, duplicate-free list of exactly the kept tags. |
| TagExtractors.PublicTagsExample | src/kerko/extractors.py:391-403 | With include pattern "public" and exclude pattern "public-internal", the tag "public-release" is kept and "public-internal-draft" is dropped. |
| LanguageExtraction.BaseCode | src/kerko/extractors.py:499 | The code searched for is the prefix of the value before its first '-' or '_'. |
| LanguageExtraction.NormalizeLanguage | src/kerko/extractors.py:475-513 | A database match gives (ISO 639-3 code, translated name). Otherwise, when invalid values are allowed, a non-empty stripped value gives (lower-cased value, the label for an invalid value). The result is `None` iff there is no match and invalid values are disallowed or the value is blank. |
| LanguageExtraction.TwoLetterCodeResolves | src/kerko/extractors.py:505-510 | A two-letter code found in the ISO 639-1 table resolves to that language's three-letter code and translated name. |
| LanguageExtraction.Verbatim | src/kerko/extractors.py:471 | Without normalization, every result is a truthy 2-tuple, and there are at most as many as there are values. |
| LanguageExtraction.VerbatimMembers | src/kerko/extractors.py:471 | Every non-empty value gives its (stripped, stripped) pair, and every pair comes from a non-empty value. |
| LanguageExtraction.VerbatimAppend | src/kerko/extractors.py:471 | The pairs keep the order of the values: the pairs of two lists of values, one after the other, are the pairs of the first list followed by those of the second. |
| LanguageExtraction.DistinctTruthy | src/kerko/extractors.py:472-473 | The result holds exactly the truthy values, each once. It is empty iff no value is truthy. |
| LanguageExtraction.Languages | src/kerko/extractors.py:461-473 | The result is `None` iff no candidate is truthy. Otherwise it lists exactly the truthy candidates, without repetition. |
| LanguageExtraction.LanguagesInFirstOccurrenceOrder | src/kerko/extractors.py:472-473 | Languages appear in the order of their first occurrence among the candidates. |
| LanguageExtraction.SameLanguageCollapses | src/kerko/extractors.py:467-473 | Two values that normalize to the same language give one entry. |
| LanguageExtraction.NoLanguageField | src/kerko/extractors.py:467-473 | An item without a language field yields `None`. |
| LanguageExtraction.NormalizeEmpty | src/kerko/extractors.py:475-513 | A blank value normalizes to `None` when no language is named "". |
| ChildExtractors.Accepted | src/kerko/extractors.py:557-564 | A child is accepted iff it has the wanted type and passes the tag gate. Order is kept. |
| ChildExtractors.AcceptedAppend | src/kerko/extractors.py:557-564 | Filtering children a + b concatenates the filtered a and the filtered b. |
| ChildExtractors.FileAndLinkExclusive | src/kerko/extractors.py:35-65 | No child is both a file attachment and a link attachment. |
| ChildExtractors.MimeTypesNarrow | src/kerko/extractors.py:35-50 | A file attachment under a MIME-type list is one under no list, and its content type, defaulting to "octet-stream", is in the list. |
| ChildExtractors.FileRecord | src/kerko/extractors.py:585-593 | A record holds the child's key as "id". Its "data" holds exactly contentType, filename, md5 and mtime, each `None` when absent. |
| ChildExtractors.FileAttachments | src/kerko/extractors.py:581-599 | The result is `None` iff no attachment is accepted. Otherwise every accepted file attachment has its record in the list, and every listed record is that of an accepted file attachment. |
| ChildExtractors.LinkRecord | src/kerko/extractors.py:611-614 | A link record holds the url. Its title is the child's title, or the url when there is none. |
| ChildExtractors.LinkedUriAttachments | src/kerko/extractors.py:607-618 | The result is `None` iff no attachment is accepted. Otherwise it holds the records of exactly the accepted link attachments, each with a non-empty url. |
| ChildExtractors.Fulltexts | src/kerko/extractors.py:631-636 | A de-tagged text is collected iff it is the full text of a file attachment with non-empty full text. |
| ChildExtractors.AttachmentsFulltext | src/kerko/extractors.py:628-638 | The result is `None` iff no attachment is accepted. It is "" when accepted attachments have no text. |
| ChildExtractors.AttachmentsFulltextSplit | src/kerko/extractors.py:628-638 | The joined text splits back into the collected texts. |
| ChildExtractors.NoteTexts | src/kerko/extractors.py:654-656 | A text is collected iff it is the non-empty note of a child. |
| ChildExtractors.NotesText | src/kerko/extractors.py:649-659 | The result is `None` iff no note is accepted. Otherwise it is a string. |
| ChildExtractors.NotesTextSplit | src/kerko/extractors.py:649-659 | The joined text splits back into the de-tagged non-empty notes, in order. |
| ChildExtractors.RawNotes | src/kerko/extractors.py:665-671 | The result is `None` iff no note is accepted. Otherwise it lists exactly the non-empty raw notes of accepted notes. |
| ChildExtractors.RefsOf | src/kerko/extractors.py:680-687 | An item id is referenced iff it is found in some note's links, or in the note's de-tagged text with line breaks turned into newlines. |
| ChildExtractors.RelationsInNotes | src/kerko/extractors.py:677-688 | The result is `None` iff no accepted note references an item. Otherwise it lists each referenced id once. |
| CollectionExtractors.ExpandPaths | src/kerko/extractors.py:691-698 | Path i has length i + 1. A path is listed iff it is a non-empty prefix of the given path. |
| CollectionExtractors.ExpandPathsChain | src/kerko/extractors.py:691-698 | The first path is the first component and the last is the whole path. Each path extends the previous one by one component. |
| CollectionExtractors.FacetLabel | src/kerko/extractors.py:719-724 | The label of an unknown collection is "". A known collection's label is its stripped name, "" when it has none. |
| CollectionExtractors.FacetPair | src/kerko/extractors.py:719-725 | A facet value is the pair (path as tuple, label of the path's last collection). |
| CollectionExtractors.FacetPairInjective | src/kerko/extractors.py:719-725 | Two paths with the same facet value are the same path. |
| CollectionExtractors.FacetChain | src/kerko/extractors.py:711-717 | A collection contributes iff it is known, has more than one ancestor and its outermost ancestor is the facet's root. It then contributes its ancestors without the root. |
| CollectionExtractors.ChainPairs | src/kerko/extractors.py:718-725 | A collection contributes exactly one pair for each non-empty prefix of its path below the root. |
| CollectionExtractors.TreePairs | src/kerko/extractors.py:710-725 | A pair is in the tree iff one of the item's collections contributes it. |
| CollectionExtractors.CollectionFacetTree | src/kerko/extractors.py:707-726 | The result is `None` iff no collection of the item lies under the root. Otherwise it is the non-empty set of the contributed pairs. |
| CollectionExtractors.ChainContributes | src/kerko/extractors.py:718-725 | A collection under the root contributes at least the path of its outermost collection below the root. |
| CollectionExtractors.ChainPairsClosedUnderPrefix | src/kerko/extractors.py:718-725 | When one collection contributes a path, it contributes every non-empty prefix of that path too. |
| CollectionExtractors.FacetTreeClosedUnderPrefix | src/kerko/extractors.py:707-726 | When a path is in the facet tree, every non-empty prefix of it is too. |
| CollectionExtractors.ChainPairsOfTwo | src/kerko/extractors.py:711-725 | A collection B with ancestors root > A > B contributes exactly ((A), label A) and ((A, B), label B). |
| CollectionExtractors.FacetTreeExample | src/kerko/extractors.py:707-726 | For root > A > B with the item in B, the tree is {((A), label A), ((A, B), label B)}. |
| CollectionExtractors.SearchedKeysAsWritten | src/kerko/extractors.py:753-760 | With subcollections, the searched keys are the ancestors of the item's collections. Without them, the searched keys are the single characters of the item's collection keys. |
| CollectionExtractors.Membership | src/kerko/extractors.py:761-766 | `true_only=False` gives the boolean. `true_only=True` gives `True` iff the item is in the collection and `None` iff it is not. |
| CollectionExtractors.InCollectionAsWritten | src/kerko/extractors.py:752-766 | With subcollections checked, the key is found iff it is an ancestor of one of the item's collections. Without them, it is found iff it is a single character occurring in one of the item's collection keys. The result is the boolean, or True/None with `true_only`. |
| CollectionExtractors.InCollectionAsWrittenMissesDirectMember | src/kerko/extractors.py:753-760 | As written, an item directly in collection "ABCD1234" is reported as not in it, and as being in "A". |
| CollectionExtractors.SearchedKeys | src/kerko/extractors.py:753-760 | Without subcollections, a key is searched iff it is one of the item's collections. |
| CollectionExtractors.InCollection | src/kerko/extractors.py:752-766 | The result is the boolean, or `True`/`None`, of the item being in the collection, directly or through a subcollection. |
| CollectionExtractors.SubcollectionsAsWrittenAgree | src/kerko/extractors.py:752-766 | With subcollections checked, the corrected and the as-written membership give the same result. |
| CollectionExtractors.DirectMemberIsSubcollectionMember | src/kerko/extractors.py:752-766 | Direct membership implies membership through subcollections. With subcollections, the corrected and as-written versions agree. |
| DateExtractors.Year | src/kerko/extractors.py:790-795 | The result is `None` iff the parsed date is empty. Otherwise it is a numeral that reads back as the parsed year. |
| DateExtractors.Decade | src/kerko/extractors.py:808 | The decade is a multiple of 10 within 10 of the year, rounded toward zero. |
| DateExtractors.Century | src/kerko/extractors.py:809 | The century is a multiple of 100 within 100 of the year, rounded toward zero. |
| DateExtractors.YearFacet | src/kerko/extractors.py:804-811 | The result is `None` iff the parsed date is empty. Otherwise it is a list of three paths. |
| DateExtractors.YearFacetPaths | src/kerko/extractors.py:804-811 | The facet is [[c], [c, d], [c, d, y]], each numeral reading back as its number. For a non-negative year, c <= d <= y, y - d < 10 and d - c < 100. |
| DateExtractors.DecadeWithinCentury | src/kerko/extractors.py:808-809 | A non-negative year's decade lies between its century and the year itself. |
| DateExtractors.YearFacetEndsWithYear | src/kerko/extractors.py:804-811 | The facet's last path extends the middle path with the value of the year extractor. |
| DateExtractors.YearFacetExample | src/kerko/extractors.py:804-811 | The year 2023 is faceted as 2000 > 2020 > 2023. |
| DateExtractors.SortDateText | src/kerko/extractors.py:884 | The padded date text always reads back as an integer. |
| DateExtractors.SortDate | src/kerko/extractors.py:880-884 | For a non-negative year and a month and day below 100, the key is year * 10000 + month * 100 + day. |
| DateExtractors.SortDatePacking | src/kerko/extractors.py:884 | For a non-negative year, the text reads back as year * 10000 + month * 100 + day. |
| DateExtractors.SortDateNegativeYear | src/kerko/extractors.py:884 | For a negative year, the minus sign applies to the whole packed number. |
| DateExtractors.SortDateOrder | src/kerko/extractors.py:880-884 | Keys of non-negative dates compare as the dates do: year, then month, then day. |
| DateExtractors.SortDateExample | src/kerko/extractors.py:880-884 | The date 1999-01-01 sorts as 19990101. |
| SortKeyExtractors.SortItemDataAsWritten | src/kerko/extractors.py:843-845 | As written, a missing field sorts as the text "None". |
| SortKeyExtractors.SortItemDataAsWrittenMissingIsNone | src/kerko/extractors.py:843-845 | As written, an item without the field sorts like one whose field holds "None". |
| SortKeyExtractors.SortItemData | src/kerko/extractors.py:843-845 | A missing field sorts as the empty text. A present field sorts by its de-tagged, normalized text. |
| SortKeyExtractors.SortItemDataMissingIsEmpty | src/kerko/extractors.py:843-845 | An item without the field sorts like one whose field is empty. |
| SortKeyExtractors.SortTitle | src/kerko/extractors.py:848-850 | Notes and annotations sort by the empty text. |
| SortKeyExtractors.NonEmptyParts | src/kerko/extractors.py:863 | Only the non-empty name parts take part in a creator's key. |
| SortKeyExtractors.CreatorsOfType | src/kerko/extractors.py:872-874 | A creator is selected for a type iff its creator type equals that type. Item order is kept. |
| SortKeyExtractors.SelectedCreators | src/kerko/extractors.py:871-876 | No creator is selected iff no type has a creator. Otherwise the selection is the creators of the first type that has any. |
| SortKeyExtractors.SortCreator | src/kerko/extractors.py:853-877 | The key is "" when no creator type of the item has a creator. |
| SortKeyExtractors.SortCreatorPrimaryOnly | src/kerko/extractors.py:871-877 | When the primary type has creators, only they make up the key. |
| SortKeyExtractors.CreatorSortKeyLastFirst | src/kerko/extractors.py:857-863 | A creator with a last and a first name is keyed "last zzz first". |

## Left out

- Logging (`warning`, lines 111-113) is a side effect. It does not change any extracted value.
- `RawDataExtractor` (lines 239-241) returns the whole data dict unchanged. The typed `Zotero.Data` record is not a `PyValue.Value`, so there is nothing to model beyond the identity.
- `BaseChildrenExtractor` (lines 557-564) is modelled only through the child extractors built on it (`ChildExtractors.AcceptedChildren`). It is not a standalone leaf of `Extractors.Kind`.
- `MaximizeParsedDateExtractor` (lines 819-829) builds a `datetime` from `maximize_partial_date`. Neither is part of this model.
- The pycountry language database, gettext translations and their caching (`translate_language`, lines 515-530) are the `db` and `translate` parameters of `LanguageExtraction.LanguageConfig`.
- Regular expressions (value separator, tag include/exclude, the child tag gate), `striptags`, `richtext_striptags`, `sort_normalize`, `parse_partial_date` and the Zotero-URI finders are function parameters and are not computed.
- Python's set iteration order is the `SetOrder` parameter. `ChildExtractors.RelationsInNotes` states distinctness and membership only for orders that list every element once.
- Python dicts iterate in insertion order, but `PyValue.VDict` is a map and cannot record it. `PyValue.Elements` iterates a dict's keys through the same `SetOrder` parameter, so a multi extractor or a multiple encoding over a dict value follows that parameter, not insertion order. No leaf of the model builds a bare dict as its value: dicts appear only as list elements (file and link records, field and creator-type metadata). The one exception is a top-level item member, which `ItemExtractors.ItemMember` passes through as given.
- `sorted(..., key=sort_normalize)` leaves the order of equal keys to set iteration order. `Sorting.SortBy` fixes it to first occurrence.
- DateExtractors.Decade: `int(int(year) / 10)` goes through a float, which loses precision beyond 2^53. The model uses exact truncating division.
- DateExtractors.Century: same float caveat as `Decade`.
- Data fields such as `mtime` are modelled as strings. A field holding a number or a list is not modelled.
- `PyInt.ParseDecimal` reads only an optional minus sign and ASCII digits. `int()`'s whitespace, '+', underscores and Unicode digits are not modelled.
- Extractors.Eval: the runtime assertion that children share the parent's format (lines 162 and 187) is the precondition `WellFormed`. A chain is evaluated through all its children, which, extraction being pure, gives the same value as stopping early.
- The assertion that constructors consumed every keyword argument (line 93) concerns configuration, not extraction.
- Zotero.PartialDate: month and day are typed `nat`. This assumes that `parse_partial_date` never returns a negative month or day. `parse_partial_date` is not part of this model, so `SortDate` relies on the assumption when it reads the packed text back as an integer.
- ItemExtractors.ItemMember: only scalar top-level members are modelled. `data`, `links` and `children` are typed fields instead.
- Extractors.ExtractLeaf: the `InCollection` leaf evaluates `CollectionExtractors.InCollection`, not `InCollectionAsWritten`. The `SortData` leaf evaluates `SortKeyExtractors.SortItemData`, not `SortItemDataAsWritten`. Both are the corrected definitions of "## Findings". The tree therefore differs from the code as written in two cases: membership without subcollections, and a missing sorted field. In every other case the two agree, as the two agreement lemmas in `Extractors` state.
- The `encoding` of an `Extractors.Extractor` is chosen freely for every node. The source's per-class defaults are not modelled: multiple encoding for `MultiExtractor` (line 155), `CollectionFacetTreeExtractor` (line 704), `TagsFacetExtractor` (line 772) and `YearFacetExtractor` (line 801), and the multiple encoding that `LanguageExtractor` forces (line 452). Defaults only fix the field at construction; `StoreValue` covers both encodings.
- Extractors.StoreValue returns the new document instead of mutating it in place.

## Findings

| source | as written | input that shows it | evidently intended | confidence | as-written member | corrected member |
|---|---|---|---|---|---|---|
| src/kerko/extractors.py:753-761 | With `check_subcollections=False`, `itertools.chain(*[c ...])` chains the key strings themselves, so the searched "keys" are single characters. | Collections ["ABCD1234"], collection key "ABCD1234": the result is `None`. Key "A": the result is `True`. | Without subcollections, membership means the key is one of the item's collections. | not executed; high | CollectionExtractors.InCollectionAsWritten, CollectionExtractors.InCollectionAsWrittenMissesDirectMember | CollectionExtractors.InCollection, CollectionExtractors.DirectMemberIsSubcollectionMember |
| src/kerko/extractors.py:843-845 | A missing field is passed as `None` to `Markup`, which renders it as the text "None". | An item without the field sorts exactly like one whose field is "None", between "Nona" and "Nonz". | A missing field sorts like an empty one, as a missing title does. | not executed; medium | SortKeyExtractors.SortItemDataAsWritten, SortKeyExtractors.SortItemDataAsWrittenMissingIsNone | SortKeyExtractors.SortItemData, SortKeyExtractors.SortItemDataMissingIsEmpty |

=== FILE: children.dfy ===
/**
 * Extraction from an item's child notes and attachments. A children
 * extractor first keeps the children of one item type that its tag gate
 * accepts; `TagGate.check` is a parameter.
 */
module ChildExtractors {
  import opened PyValue
  import opened PyStr
  import opened Zotero

  /** `TagGate(include_re, exclude_re).check` applied to a child's data. */
  type TagGate = Data -> bool

  /** A child is accepted when it has the wanted item type and passes the gate. */
  predicate Accepts(itemType: string, gate: TagGate, child: Item) {
    ItemType(child.data) == Some(itemType) && gate(child.data)
  }

  /** The accepted children among `children`, in their original order. */
  function Accepted(children: seq<Item>, itemType: string, gate: TagGate): (r: seq<Item>)
    ensures forall c :: c in r <==> c in children && Accepts(itemType, gate, c)
    ensures |r| <= |children|
  {
    if children == [] then []
    else if Accepts(itemType, gate, children[0]) then [children[0]] + Accepted(children[1..], itemType, gate)
    else Accepted(children[1..], itemType, gate)
  }

  /** Filtering distributes over concatenation, so the children keep their relative order. */
  lemma {:induction false} AcceptedAppend(a: seq<Item>, b: seq<Item>, itemType: string, gate: TagGate)
    ensures Accepted(a + b, itemType, gate) == Accepted(a, itemType, gate) + Accepted(b, itemType, gate)
  {
    if a == [] {
      assert a + b == b;
    } else {
      assert (a + b)[1..] == a[1..] + b;
      AcceptedAppend(a[1..], b, itemType, gate);
    }
  }

  /** The children `BaseChildrenExtractor` accepts; the extractor itself returns None for none. */
  function AcceptedChildren(item: Item, itemType: string, gate: TagGate): seq<Item> {
    Accepted(item.children, itemType, gate)
  }

  /**
   * `is_file_attachment`: a stored file (imported file or imported URL) with
   * a key, and, when a MIME type list is given, a content type from that
   * list ("octet-stream" when the child has none).
   */
  predicate IsFileAttachment(child: Item, mimeTypes: seq<string>) {
    && HasText(child.data, "key")
    && Field(child.data, "linkMode") in [Some("imported_file"), Some("imported_url")]
    && (mimeTypes == [] || FieldOr(child.data, "contentType", "octet-stream") in mimeTypes)
  }

  /** `is_link_attachment`: a linked URL with a key and a non-empty URL. */
  predicate IsLinkAttachment(child: Item) {
    && HasText(child.data, "key")
    && Field(child.data, "linkMode") == Some("linked_url")
    && HasText(child.data, "url")
  }

  /** No child is both a file attachment and a link attachment. */
  lemma FileAndLinkExclusive(child: Item, mimeTypes: seq<string>)
    ensures !(IsFileAttachment(child, mimeTypes) && IsLinkAttachment(child))
  {
  }

  /**
   * A MIME type list only narrows the selection: a file attachment under a
   * list is one without it, and has a listed (or defaulted) content type.
   */
  lemma MimeTypesNarrow(child: Item, mimeTypes: seq<string>)
    requires IsFileAttachment(child, mimeTypes)
    ensures IsFileAttachment(child, [])
    ensures mimeTypes != [] ==>
      if "contentType" in child.data.fields then child.data.fields["contentType"] in mimeTypes
      else "octet-stream" in mimeTypes
  {
  }

  /** `data.get(k)` as a value: the field's text, or None when it is absent. */
  function FieldValue(d: Data, k: string): (r: Value)
    ensures r == VNone <==> k !in d.fields
    ensures k in d.fields ==> r == VStr(d.fields[k])
  {
    if k in d.fields then VStr(d.fields[k]) else VNone
  }

  /** The stored-file record of one attachment child. */
  function FileRecord(child: Item): (r: Value)
    ensures r.VDict? && r.entries.Keys == {"id", "data"}
    ensures r.entries["id"] == VStr(child.key)
    ensures r.entries["data"].VDict?
    ensures r.entries["data"].entries.Keys == {"contentType", "filename", "md5", "mtime"}
    ensures forall k :: k in r.entries["data"].entries ==>
      r.entries["data"].entries[k] == FieldValue(child.data, k)
  {
    VDict(map[
      "id" := VStr(child.key),
      "data" := VDict(map[
        "contentType" := FieldValue(child.data, "contentType"),
        "filename" := FieldValue(child.data, "filename"),
        "md5" := FieldValue(child.data, "md5"),
        "mtime" := FieldValue(child.data, "mtime")])])
  }

  /** The file attachments among `children`, in order. */
  function FileChildren(children: seq<Item>, mimeTypes: seq<string>): (r: seq<Item>)
    ensures forall c :: c in r <==> c in children && IsFileAttachment(c, mimeTypes)
  {
    if children == [] then []
    else if IsFileAttachment(children[0], mimeTypes) then [children[0]] + FileChildren(children[1..], mimeTypes)
    else FileChildren(children[1..], mimeTypes)
  }

  /** The records of `children`, one per child. */
  function FileRecords(children: seq<Item>): (r: seq<Value>)
    ensures |r| == |children|
    ensures forall i :: 0 <= i < |children| ==> r[i] == FileRecord(children[i])
  {
    seq(|children|, i requires 0 <= i < |children| => FileRecord(children[i]))
  }

  /**
   * `ChildFileAttachmentsExtractor`: None when no attachment child is
   * accepted; otherwise a list, possibly empty, with the record of every
   * accepted stored file.
   */
  function FileAttachments(item: Item, gate: TagGate, mimeTypes: seq<string>): (r: Value)
    ensures r == VNone <==> AcceptedChildren(item, "attachment", gate) == []
    ensures r != VNone ==> r.VList?
    ensures r != VNone ==> forall c :: c in item.children && Accepts("attachment", gate, c) && IsFileAttachment(c, mimeTypes) ==>
      FileRecord(c) in r.items
    ensures r != VNone ==> forall v :: v in r.items ==>
      exists c :: c in item.children && Accepts("attachment", gate, c) && IsFileAttachment(c, mimeTypes) && v == FileRecord(c)
  {
    var children := AcceptedChildren(item, "attachment", gate);
    if children == [] then VNone
    else
      var files := FileChildren(children, mimeTypes);
      FileRecordsCover(files);
      VList(FileRecords(files))
  }

  lemma FileRecordsCover(files: seq<Item>)
    ensures forall c :: c in files ==> FileRecord(c) in FileRecords(files)
    ensures forall v :: v in FileRecords(files) ==> exists c :: c in files && v == FileRecord(c)
  {
    var records := FileRecords(files);
    forall c | c in files ensures FileRecord(c) in records {
      var i :| 0 <= i < |files| && files[i] == c;
      assert records[i] == FileRecord(c);
    }
    forall v | v in records ensures exists c :: c in files && v == FileRecord(c) {
      var i :| 0 <= i < |records| && records[i] == v;
      assert files[i] in files;
    }
  }

  /** The link record of one attachment child: its title (its URL when untitled) and URL. */
  function LinkRecord(child: Item): (r: Value)
    ensures r.VDict? && r.entries.Keys == {"title", "url"}
    ensures r.entries["url"] == FieldValue(child.data, "url")
    ensures "title" in child.data.fields ==> r.entries["title"] == VStr(child.data.fields["title"])
    ensures "title" !in child.data.fields ==> r.entries["title"] == r.entries["url"]
  {
    VDict(map[
      "title" := if "title" in child.data.fields then VStr(child.data.fields["title"]) else FieldValue(child.data, "url"),
      "url" := FieldValue(child.data, "url")])
  }

  /** The link attachments among `children`, in order. */
  function LinkChildren(children: seq<Item>): (r: seq<Item>)
    ensures forall c :: c in r <==> c in children && IsLinkAttachment(c)
  {
    if children == [] then []
    else if IsLinkAttachment(children[0]) then [children[0]] + LinkChildren(children[1..])
    else LinkChildren(children[1..])
  }

  /**
   * `ChildLinkedURIAttachmentsExtractor`: None when no attachment child is
   * accepted; otherwise the link record of every accepted link attachment,
   * each of which carries a non-empty URL.
   */
  function LinkedUriAttachments(item: Item, gate: TagGate): (r: Value)
    ensures r == VNone <==> AcceptedChildren(item, "attachment", gate) == []
    ensures r != VNone ==> r.VList?
    ensures r != VNone ==> forall v :: v in r.items ==>
      v.VDict? && "url" in v.entries && v.entries["url"].VStr? && v.entries["url"].s != ""
    ensures r != VNone ==> forall c :: c in item.children && Accepts("attachment", gate, c) && IsLinkAttachment(c) ==>
      LinkRecord(c) in r.items
    ensures r != VNone ==> forall v :: v in r.items ==>
      exists c :: c in item.children && Accepts("attachment", gate, c) && IsLinkAttachment(c) && v == LinkRecord(c)
  {
    var children := AcceptedChildren(item, "attachment", gate);
    if children == [] then VNone
    else
      var links := LinkChildren(children);
      LinkRecordsCover(links);
      VList(LinkRecords(links))
  }

  /** The link records of `links`, one per child. */
  function LinkRecords(links: seq<Item>): (r: seq<Value>)
    ensures |r| == |links|
    ensures forall i :: 0 <= i < |links| ==> r[i] == LinkRecord(links[i])
  {
    seq(|links|, i requires 0 <= i < |links| => LinkRecord(links[i]))
  }

  lemma LinkRecordsCover(links: seq<Item>)
    ensures forall c :: c in links ==> LinkRecord(c) in LinkRecords(links)
    ensures forall v :: v in LinkRecords(links) ==> exists c :: c in links && v == LinkRecord(c)
  {
    var records := LinkRecords(links);
    forall c | c in links ensures LinkRecord(c) in records {
      var i :| 0 <= i < |links| && links[i] == c;
      assert records[i] == LinkRecord(c);
    }
    forall v | v in records ensures exists c :: c in links && v == LinkRecord(c) {
      var i :| 0 <= i < |records| && records[i] == v;
      assert links[i] in links;
    }
  }

  /** A child's full text is indexed when it is a stored file with non-empty text. */
  predicate HasFulltext(child: Item, mimeTypes: seq<string>) {
    IsFileAttachment(child, mimeTypes) && child.fulltext.Some? && child.fulltext.value != ""
  }

  /** The tag-stripped full texts of the children that have one, in order. */
  function Fulltexts(children: seq<Item>, mimeTypes: seq<string>, env: Env): (r: seq<string>)
    ensures |r| <= |children|
    ensures forall c :: c in children && HasFulltext(c, mimeTypes) ==> env.striptags(c.fulltext.value) in r
    ensures forall t :: t in r ==> exists c :: c in children && HasFulltext(c, mimeTypes) && t == env.striptags(c.fulltext.value)
  {
    if children == [] then []
    else
      var rest := Fulltexts(children[1..], mimeTypes, env);
      if HasFulltext(children[0], mimeTypes) then [env.striptags(children[0].fulltext.value)] + rest
      else rest
  }

  /**
   * `ChildAttachmentsFulltextExtractor`: None when no attachment child is
   * accepted; otherwise the full texts joined by the record separator (""
   * when none of the accepted children has one).
   */
  function AttachmentsFulltext(item: Item, gate: TagGate, mimeTypes: seq<string>, env: Env): (r: Value)
    ensures r == VNone <==> AcceptedChildren(item, "attachment", gate) == []
    ensures r != VNone ==> r.VStr?
    ensures r != VNone && Fulltexts(AcceptedChildren(item, "attachment", gate), mimeTypes, env) == [] ==> r.s == ""
  {
    var children := AcceptedChildren(item, "attachment", gate);
    if children == [] then VNone
    else VStr(Join([RecordSeparator], Fulltexts(children, mimeTypes, env)))
  }

  /**
   * Splitting the indexed text gives back the full text of every accepted
   * stored file, in child order, when there is at least one and none
   * contains the record separator.
   */
  lemma AttachmentsFulltextSplit(item: Item, gate: TagGate, mimeTypes: seq<string>, env: Env)
    requires Fulltexts(AcceptedChildren(item, "attachment", gate), mimeTypes, env) != []
    requires forall t :: t in Fulltexts(AcceptedChildren(item, "attachment", gate), mimeTypes, env) ==> RecordSeparator !in t
    ensures AttachmentsFulltext(item, gate, mimeTypes, env).VStr?
    ensures Split(RecordSeparator, AttachmentsFulltext(item, gate, mimeTypes, env).s)
         == Fulltexts(AcceptedChildren(item, "attachment", gate), mimeTypes, env)
  {
    var texts := Fulltexts(AcceptedChildren(item, "attachment", gate), mimeTypes, env);
    assert forall i :: 0 <= i < |texts| ==> RecordSeparator !in texts[i] by {
      forall i | 0 <= i < |texts| ensures RecordSeparator !in texts[i] {
        assert texts[i] in texts;
      }
    }
    SplitJoin(RecordSeparator, texts);
  }

  /** The notes with non-empty text among `children`, in order. */
  function NoteTexts(children: seq<Item>): (r: seq<string>)
    ensures |r| <= |children|
    ensures forall n :: n in r ==> n != ""
    ensures forall c :: c in children && HasText(c.data, "note") ==> c.data.fields["note"] in r
    ensures forall n :: n in r ==> exists c :: c in children && HasText(c.data, "note") && n == c.data.fields["note"]
  {
    if children == [] then []
    else
      var rest := NoteTexts(children[1..]);
      if HasText(children[0].data, "note") then [children[0].data.fields["note"]] + rest
      else rest
  }

  /** Every text with its tags stripped. */
  function StripAll(texts: seq<string>, env: Env): (r: seq<string>)
    ensures |r| == |texts|
    ensures forall i :: 0 <= i < |texts| ==> r[i] == env.striptags(texts[i])
  {
    seq(|texts|, i requires 0 <= i < |texts| => env.striptags(texts[i]))
  }

  /**
   * `ChildNotesTextExtractor`: None when no note child is accepted;
   * otherwise the tag-stripped notes joined by the record separator.
   */
  function NotesText(item: Item, gate: TagGate, env: Env): (r: Value)
    ensures r == VNone <==> AcceptedChildren(item, "note", gate) == []
    ensures r != VNone ==> r.VStr?
  {
    var children := AcceptedChildren(item, "note", gate);
    if children == [] then VNone
    else VStr(Join([RecordSeparator], StripAll(NoteTexts(children), env)))
  }

  /**
   * Splitting the text gives back every stripped note, in child order, when
   * there is at least one and none contains the record separator.
   */
  lemma NotesTextSplit(item: Item, gate: TagGate, env: Env)
    requires NoteTexts(AcceptedChildren(item, "note", gate)) != []
    requires forall n :: n in NoteTexts(AcceptedChildren(item, "note", gate)) ==> RecordSeparator !in env.striptags(n)
    ensures NotesText(item, gate, env).VStr?
    ensures Split(RecordSeparator, NotesText(item, gate, env).s)
         == StripAll(NoteTexts(AcceptedChildren(item, "note", gate)), env)
  {
    var notes := NoteTexts(AcceptedChildren(item, "note", gate));
    var texts := StripAll(notes, env);
    assert forall i :: 0 <= i < |texts| ==> RecordSeparator !in texts[i] by {
      forall i | 0 <= i < |texts| ensures RecordSeparator !in texts[i] {
        assert notes[i] in notes;
      }
    }
    SplitJoin(RecordSeparator, texts);
  }

  /**
   * `RawChildNotesExtractor`: None when no note child is accepted;
   * otherwise the raw text of every accepted note that has some.
   */
  function RawNotes(item: Item, gate: TagGate): (r: Value)
    ensures r == VNone <==> AcceptedChildren(item, "note", gate) == []
    ensures r != VNone ==> r.VList?
    ensures r != VNone ==> forall c :: c in item.children && Accepts("note", gate, c) && HasText(c.data, "note") ==>
      VStr(c.data.fields["note"]) in r.items
    ensures r != VNone ==> forall v :: v in r.items ==>
      && v.VStr? && v.s != ""
      && exists c :: c in item.children && Accepts("note", gate, c) && HasText(c.data, "note") && v.s == c.data.fields["note"]
  {
    var children := AcceptedChildren(item, "note", gate);
    if children == [] then VNone
    else
      var notes := NoteTexts(children);
      var vs := StrList(notes);
      assert forall n :: n in notes ==> VStr(n) in vs by {
        forall n | n in notes ensures VStr(n) in vs {
          var i :| 0 <= i < |notes| && notes[i] == n;
          assert vs[i] == VStr(n);
        }
      }
      assert forall v :: v in vs ==> v.VStr? && v.s in notes by {
        forall v | v in vs ensures v.VStr? && v.s in notes {
          var i :| 0 <= i < |vs| && vs[i] == v;
          assert notes[i] in notes;
        }
      }
      VList(vs)
  }

  /**
   * The item keys a note refers to: those in the `href` of its links, and
   * those written out in its text once line breaks replace `<br/>` tags and
   * the remaining tags are stripped.
   */
  function NoteRefs(note: string, env: Env): set<string> {
    env.itemIdsInLinks(note) + env.itemIdsInText(env.striptags(env.breaksToNewlines(note)))
  }

  /** The keys referred to by any of `children`'s notes (a child without a note counts as ""). */
  function RefsOf(children: seq<Item>, env: Env): (r: set<string>)
    ensures forall k :: k in r <==> exists c :: c in children && k in NoteRefs(FieldOr(c.data, "note", ""), env)
  {
    if children == [] then {}
    else
      var c := children[0];
      var rest := RefsOf(children[1..], env);
      assert forall c' :: c' in children <==> c' == c || c' in children[1..];
      NoteRefs(FieldOr(c.data, "note", ""), env) + rest
  }

  /**
   * `RelationsInChildNotesExtractor`: the keys the accepted notes refer to,
   * listed in set iteration order, or None when there is none.
   */
  function RelationsInNotes(item: Item, gate: TagGate, env: Env): (r: Value)
    ensures r == VNone <==> RefsOf(AcceptedChildren(item, "note", gate), env) == {}
    ensures r != VNone ==> r.VList?
    ensures r != VNone && FaithfulOrder(env.order) ==>
      && (forall i, j :: 0 <= i < j < |r.items| ==> r.items[i] != r.items[j])
      && forall k: string :: VStr(k) in r.items <==>
          exists c :: c in item.children && Accepts("note", gate, c) && k in NoteRefs(FieldOr(c.data, "note", ""), env)
  {
    var refs := RefsOf(AcceptedChildren(item, "note", gate), env);
    if refs == {} then VNone
    else
      AcceptedNoteRefs(item, gate, env);
      ListedKeys(env.order, refs);
      VList(env.order(KeyValues(refs)))
  }

  /** The keys as Python strings. */
  function KeyValues(keys: set<string>): (s: set<Value>)
    ensures forall k :: VStr(k) in s <==> k in keys
  {
    set k | k in keys :: VStr(k)
  }

  /** A faithful order lists each key once. */
  lemma ListedKeys(order: SetOrder, keys: set<string>)
    ensures FaithfulOrder(order) ==>
      && (forall i, j :: 0 <= i < j < |order(KeyValues(keys))| ==> order(KeyValues(keys))[i] != order(KeyValues(keys))[j])
      && forall k: string :: VStr(k) in order(KeyValues(keys)) <==> k in keys
  {
    if FaithfulOrder(order) {
      assert Enumerates(order(KeyValues(keys)), KeyValues(keys));
    }
  }

  /** The keys the accepted notes refer to, in terms of the item's children. */
  lemma AcceptedNoteRefs(item: Item, gate: TagGate, env: Env)
    ensures forall k :: k in RefsOf(AcceptedChildren(item, "note", gate), env) <==>
      exists c :: c in item.children && Accepts("note", gate, c) && k in NoteRefs(FieldOr(c.data, "note", ""), env)
  {
    var children := AcceptedChildren(item, "note", gate);
    assert forall c :: c in children <==> c in item.children && Accepts("note", gate, c);
  }
}

=== FILE: collections.dfy ===
/**
 * Extraction from the collections an item belongs to: the hierarchical
 * facet of a collection tree, and membership in one collection.
 */
module CollectionExtractors {
  import opened PyValue
  import opened PyStr
  import opened Zotero

  /** `_expand_paths`: the path of every component of `p`, outermost first. */
  function ExpandPaths<T(!new)>(p: seq<T>): (r: seq<seq<T>>)
    ensures |r| == |p|
    ensures forall q :: q in r <==> q != [] && q <= p
    ensures forall i :: 0 <= i < |r| ==> |r[i]| == i + 1
  {
    var r := seq(|p|, i requires 0 <= i < |p| => p[..i + 1]);
    assert forall q :: q != [] && q <= p ==> r[|q| - 1] == q;
    r
  }

  /** Each expanded path extends the one before it by one component, and the last is `p` itself. */
  lemma ExpandPathsChain<T(!new)>(p: seq<T>)
    requires p != []
    ensures ExpandPaths(p)[0] == [p[0]]
    ensures ExpandPaths(p)[|p| - 1] == p
    ensures forall i :: 0 < i < |p| ==> ExpandPaths(p)[i] == ExpandPaths(p)[i - 1] + [p[i]]
  {
    var r := ExpandPaths(p);
    assert r[|p| - 1] <= p && |r[|p| - 1]| == |p|;
    forall i | 0 < i < |p| ensures r[i] == r[i - 1] + [p[i]] {
      assert r[i] <= p && r[i - 1] <= p;
    }
  }

  /** The stripped name of a collection, "" when it is unknown or unnamed. */
  function FacetLabel(key: string, ctx: LibraryContext): (r: string)
    ensures key !in ctx.collections ==> r == ""
    ensures key in ctx.collections ==> r == Strip(ctx.collections[key].name.GetOr(""))
  {
    match Get(ctx.collections, key)
    case Some(c) => Strip(c.name.GetOr(""))
    case None => ""
  }

  /** One facet value: the path of collection keys paired with the label of its last collection. */
  function FacetPair(path: seq<string>, ctx: LibraryContext): (r: Value)
    requires path != []
    ensures r.VTuple? && |r.items| == 2 && r.items[0] == VTuple(StrList(path))
    ensures r.items[1] == VStr(FacetLabel(path[|path| - 1], ctx))
  {
    VTuple([VTuple(StrList(path)), VStr(FacetLabel(path[|path| - 1], ctx))])
  }

  /**
   * The facet path of a collection the item belongs to: the keys below the
   * facet's root collection down to it, or None when the collection is
   * unknown or does not lie under the root.
   */
  function FacetChain(key: string, ctx: LibraryContext, root: string): (r: Option<seq<string>>)
    ensures r.Some? <==> key in ctx.collections && |ctx.ancestors(key)| > 1 && ctx.ancestors(key)[0] == root
    ensures r.Some? ==> r.value == ctx.ancestors(key)[1..]
  {
    var anc := ctx.ancestors(key);
    if key !in ctx.collections || |anc| <= 1 || anc[0] != root then None
    else Some(anc[1..])
  }

  /** The facet values one collection contributes. */
  function ChainPairs(key: string, ctx: LibraryContext, root: string): (r: set<Value>)
    ensures forall v :: v in r <==>
      FacetChain(key, ctx, root).Some? &&
      exists q :: q in ExpandPaths(FacetChain(key, ctx, root).value) && v == FacetPair(q, ctx)
  {
    match FacetChain(key, ctx, root)
    case None => {}
    case Some(chain) => set q | q in ExpandPaths(chain) :: FacetPair(q, ctx)
  }

  /** The facet values the collections `keys` contribute. */
  function TreePairs(keys: seq<string>, ctx: LibraryContext, root: string): (r: set<Value>)
    ensures forall v :: v in r <==> exists k :: k in keys && v in ChainPairs(k, ctx, root)
  {
    if keys == [] then {}
    else
      assert forall k :: k in keys <==> k == keys[0] || k in keys[1..];
      ChainPairs(keys[0], ctx, root) + TreePairs(keys[1..], ctx, root)
  }

  /**
   * `CollectionFacetTreeExtractor`: the set of (path, label) pairs of every
   * collection the item belongs to under the facet's root collection and of
   * each of its ancestors below the root; None when there is none.
   */
  function CollectionFacetTree(item: Item, ctx: LibraryContext, spec: FieldSpec): (r: Value)
    ensures r == VNone || (r.VSet? && r.elems != {})
    ensures r == VNone <==> forall k :: k in item.data.collections ==> FacetChain(k, ctx, spec.collectionKey).None?
    ensures r.VSet? ==> r.elems == TreePairs(item.data.collections, ctx, spec.collectionKey)
  {
    var pairs := TreePairs(item.data.collections, ctx, spec.collectionKey);
    assert forall k :: k in item.data.collections && FacetChain(k, ctx, spec.collectionKey).Some? ==> pairs != {} by {
      forall k | k in item.data.collections && FacetChain(k, ctx, spec.collectionKey).Some? ensures pairs != {} {
        ChainContributes(k, ctx, spec.collectionKey);
        var v := FacetPair([FacetChain(k, ctx, spec.collectionKey).value[0]], ctx);
        assert v in ChainPairs(k, ctx, spec.collectionKey);
        assert v in pairs;
      }
    }
    if pairs == {} then
      VNone
    else VSet(pairs)
  }

  /** A collection under the root contributes at least its outermost path. */
  lemma ChainContributes(key: string, ctx: LibraryContext, root: string)
    requires FacetChain(key, ctx, root).Some?
    ensures FacetPair([FacetChain(key, ctx, root).value[0]], ctx) in ChainPairs(key, ctx, root)
  {
    var chain := FacetChain(key, ctx, root).value;
    assert chain[..1] == [chain[0]];
    assert [chain[0]] in ExpandPaths(chain);
  }

  /**
   * The facet values form a tree: with the value of a path come the values
   * of all its non-empty prefixes.
   */
  lemma FacetTreeClosedUnderPrefix(item: Item, ctx: LibraryContext, spec: FieldSpec, path: seq<string>, prefix: seq<string>)
    requires path != [] && CollectionFacetTree(item, ctx, spec).VSet?
    requires FacetPair(path, ctx) in CollectionFacetTree(item, ctx, spec).elems
    requires prefix != [] && prefix <= path
    ensures FacetPair(prefix, ctx) in CollectionFacetTree(item, ctx, spec).elems
  {
    var root := spec.collectionKey;
    var pairs := TreePairs(item.data.collections, ctx, root);
    assert FacetPair(path, ctx) in pairs;
    var k :| k in item.data.collections && FacetPair(path, ctx) in ChainPairs(k, ctx, root);
    ChainPairsClosedUnderPrefix(k, ctx, root, path, prefix);
    assert FacetPair(prefix, ctx) in pairs;
  }

  /** The facet values of one collection are closed under taking non-empty prefixes. */
  lemma ChainPairsClosedUnderPrefix(key: string, ctx: LibraryContext, root: string, path: seq<string>, prefix: seq<string>)
    requires path != [] && FacetPair(path, ctx) in ChainPairs(key, ctx, root)
    requires prefix != [] && prefix <= path
    ensures FacetPair(prefix, ctx) in ChainPairs(key, ctx, root)
  {
    var chain := FacetChain(key, ctx, root).value;
    var q :| q in ExpandPaths(chain) && FacetPair(path, ctx) == FacetPair(q, ctx);
    StrListInjective(q, path);
    assert prefix in ExpandPaths(chain);
  }

  /** Distinct paths give distinct facet values, whatever their labels. */
  lemma FacetPairInjective(p: seq<string>, q: seq<string>, ctx: LibraryContext)
    requires p != [] && q != [] && FacetPair(p, ctx) == FacetPair(q, ctx)
    ensures p == q
  {
    assert VTuple(StrList(p)) == VTuple(StrList(q));
    StrListInjective(p, q);
  }

  lemma StrListInjective(a: seq<string>, b: seq<string>)
    requires StrList(a) == StrList(b)
    ensures a == b
  {
    assert |a| == |b|;
    forall i | 0 <= i < |a| ensures a[i] == b[i] {
      assert StrList(a)[i] == StrList(b)[i];
    }
  }

  /**
   * An item filed in B, where the library has root > A > B, gets the facet
   * values ([A], name of A) and ([A, B], name of B), and no other.
   */
  lemma FacetTreeExample(item: Item, ctx: LibraryContext, spec: FieldSpec, a: string, b: string)
    requires item.data.collections == [b]
    requires b in ctx.collections && ctx.ancestors(b) == [spec.collectionKey, a, b]
    ensures CollectionFacetTree(item, ctx, spec)
         == VSet({FacetPair([a], ctx), FacetPair([a, b], ctx)})
  {
    var root := spec.collectionKey;
    ChainPairsOfTwo(b, ctx, root, a);
    TreePairsOfOne(b, ctx, root);
    assert FacetChain(b, ctx, root).Some?;
    var r := CollectionFacetTree(item, ctx, spec);
    assert r != VNone;
  }

  /** The facet values of a single collection. */
  lemma TreePairsOfOne(key: string, ctx: LibraryContext, root: string)
    ensures TreePairs([key], ctx, root) == ChainPairs(key, ctx, root)
  {
    assert [key][1..] == [];
  }

  /** A collection two levels below the root contributes its two paths. */
  lemma ChainPairsOfTwo(b: string, ctx: LibraryContext, root: string, a: string)
    requires b in ctx.collections && ctx.ancestors(b) == [root, a, b]
    ensures ChainPairs(b, ctx, root) == {FacetPair([a], ctx), FacetPair([a, b], ctx)}
  {
    assert ctx.ancestors(b)[1..] == [a, b];
    assert FacetChain(b, ctx, root) == Some([a, b]);
    ExpandPathsOfTwo(a, b);
    PairsOfTwoPaths(a, b, ctx);
  }

  /** The expansion of a two-component path. */
  lemma ExpandPathsOfTwo<T(!new)>(a: T, b: T)
    ensures ExpandPaths([a, b]) == [[a], [a, b]]
  {
    var ps := ExpandPaths([a, b]);
    assert ps[0] == [a, b][..1] == [a];
    assert ps[1] == [a, b][..2] == [a, b];
  }

  /** The facet values of the paths [a] and [a, b]. */
  lemma PairsOfTwoPaths(a: string, b: string, ctx: LibraryContext)
    ensures (set q | q in [[a], [a, b]] :: FacetPair(q, ctx)) == {FacetPair([a], ctx), FacetPair([a, b], ctx)}
  {
    var ps := [[a], [a, b]];
    var r := set q | q in ps :: FacetPair(q, ctx);
    forall v | v in r ensures v == FacetPair([a], ctx) || v == FacetPair([a, b], ctx) {
      var q :| q in ps && v == FacetPair(q, ctx);
      var i :| 0 <= i < 2 && ps[i] == q;
    }
    assert FacetPair(ps[0], ctx) in r;
    assert FacetPair(ps[1], ctx) in r;
  }

  /** Every key of `s` as a one-character string, as iterating over it yields. */
  function Singletons(s: string): (r: seq<string>)
    ensures |r| == |s|
    ensures forall x :: x in r <==> |x| == 1 && x[0] in s
  {
    var r := seq(|s|, i requires 0 <= i < |s| => [s[i]]);
    assert forall x :: x in r <==> |x| == 1 && x[0] in s by {
      forall x ensures x in r <==> |x| == 1 && x[0] in s {
        if |x| == 1 && x[0] in s {
          var i :| 0 <= i < |s| && s[i] == x[0];
          assert r[i] == x;
        }
      }
    }
    r
  }

  /**
   * What `InCollectionExtractor` searches, as written: the chained
   * ancestors of every collection, or, without subcollections, the chained
   * collection keys themselves; chaining strings yields their characters.
   */
  function SearchedKeysAsWritten(keys: seq<string>, ctx: LibraryContext, checkSub: bool): (r: seq<string>)
    ensures checkSub ==> forall x :: x in r <==> exists k :: k in keys && x in ctx.ancestors(k)
    ensures !checkSub ==> forall x :: x in r <==> |x| == 1 && exists k :: k in keys && x[0] in k
  {
    if keys == [] then []
    else
      assert forall k :: k in keys <==> k == keys[0] || k in keys[1..];
      (if checkSub then ctx.ancestors(keys[0]) else Singletons(keys[0]))
        + SearchedKeysAsWritten(keys[1..], ctx, checkSub)
  }

  /** The boolean result, or with `trueOnly` True or None. */
  function Membership(isIn: bool, trueOnly: bool): (r: Value)
    ensures !trueOnly ==> r == VBool(isIn)
    ensures trueOnly ==> (r == VBool(true) <==> isIn) && (r == VNone <==> !isIn)
  {
    if !trueOnly then VBool(isIn)
    else if isIn then VBool(true)
    else VNone
  }

  /** `InCollectionExtractor` as written. */
  function InCollectionAsWritten(item: Item, ctx: LibraryContext, key: string, trueOnly: bool, checkSub: bool): (r: Value)
    ensures checkSub ==> r == Membership(exists k :: k in item.data.collections && key in ctx.ancestors(k), trueOnly)
    ensures !checkSub ==> r == Membership(|key| == 1 && exists k :: k in item.data.collections && key[0] in k, trueOnly)
  {
    Membership(key in SearchedKeysAsWritten(item.data.collections, ctx, checkSub), trueOnly)
  }

  /**
   * As written, without subcollections, a collection key matches only when
   * it is a single character that occurs in one of the item's keys: an item
   * filed directly in the collection is reported as not in it.
   */
  lemma InCollectionAsWrittenMissesDirectMember(item: Item, ctx: LibraryContext)
    requires item.data.collections == ["ABCD1234"]
    ensures InCollectionAsWritten(item, ctx, "ABCD1234", true, false) == VNone
    ensures InCollectionAsWritten(item, ctx, "A", true, false) == VBool(true)
  {
    assert "A"[0] in "ABCD1234";
  }

  /** Whether the item belongs to collection `key`, directly or, with `checkSub`, through a subcollection. */
  predicate IsIn(item: Item, ctx: LibraryContext, key: string, checkSub: bool) {
    if checkSub then exists k :: k in item.data.collections && key in ctx.ancestors(k)
    else key in item.data.collections
  }

  /** The key lists searched, with the collection keys themselves taken whole. */
  function SearchedKeys(keys: seq<string>, ctx: LibraryContext, checkSub: bool): (r: seq<string>)
    ensures checkSub ==> forall x :: x in r <==> exists k :: k in keys && x in ctx.ancestors(k)
    ensures !checkSub ==> forall x :: x in r <==> x in keys
  {
    if keys == [] then []
    else
      assert forall k :: k in keys <==> k == keys[0] || k in keys[1..];
      (if checkSub then ctx.ancestors(keys[0]) else [keys[0]]) + SearchedKeys(keys[1..], ctx, checkSub)
  }

  /**
   * `InCollectionExtractor` as intended: True when the item is in the
   * collection (or one of its subcollections, with `checkSub`); otherwise
   * False, or None with `trueOnly`.
   */
  function InCollection(item: Item, ctx: LibraryContext, key: string, trueOnly: bool, checkSub: bool): (r: Value)
    ensures !trueOnly ==> r == VBool(IsIn(item, ctx, key, checkSub))
    ensures trueOnly ==> (r == VBool(true) <==> IsIn(item, ctx, key, checkSub))
    ensures trueOnly ==> (r == VNone <==> !IsIn(item, ctx, key, checkSub))
  {
    Membership(key in SearchedKeys(item.data.collections, ctx, checkSub), trueOnly)
  }

  /**
   * When every collection is among its own ancestors, membership through
   * subcollections includes direct membership, and the two versions agree
   * whenever subcollections are checked.
   */
  lemma DirectMemberIsSubcollectionMember(item: Item, ctx: LibraryContext, key: string, trueOnly: bool)
    requires forall k :: k in item.data.collections ==> k in ctx.ancestors(k)
    ensures IsIn(item, ctx, key, false) ==> IsIn(item, ctx, key, true)
    ensures InCollection(item, ctx, key, trueOnly, true) == InCollectionAsWritten(item, ctx, key, trueOnly, true)
  {
    if IsIn(item, ctx, key, false) {
      assert key in item.data.collections && key in ctx.ancestors(key);
    }
  }

  /** With subcollections checked, the code as written already searches the right keys. */
  lemma SubcollectionsAsWrittenAgree(item: Item, ctx: LibraryContext, key: string, trueOnly: bool)
    ensures InCollection(item, ctx, key, trueOnly, true) == InCollectionAsWritten(item, ctx, key, trueOnly, true)
  {
    var keys := item.data.collections;
    assert key in SearchedKeys(keys, ctx, true) <==> key in SearchedKeysAsWritten(keys, ctx, true);
  }
}

=== FILE: dates.dfy ===
/**
 * Extraction from an item's parsed publication date: the year, the
 * century > decade > year facet, and the numeric sort key. The date parser
 * `parse_partial_date` is a parameter.
 */
module DateExtractors {
  import opened PyValue
  import opened PyInt
  import opened Zotero
  import CollectionExtractors

  /** `meta.get("parsedDate", "")`. */
  function ParsedDate(item: Item): string {
    Get(item.meta, "parsedDate").GetOr("")
  }

  /** `YearExtractor`: the year of a non-empty parsed date, as a string. */
  function Year(item: Item, env: Env): (r: Value)
    ensures r == VNone <==> ParsedDate(item) == ""
    ensures r != VNone ==> r.VStr? && ParseDecimal(r.s) == Some(env.parseDate(ParsedDate(item)).year)
  {
    if ParsedDate(item) == "" then VNone
    else
      var y := env.parseDate(ParsedDate(item)).year;
      ParseStr(y);
      VStr(Str(y))
  }

  /** `int(int(year) / 10) * 10`: the year rounded toward zero to its decade. */
  function Decade(y: int): (d: int)
    ensures d % 10 == 0
    ensures y >= 0 ==> 0 <= y - d < 10
    ensures y < 0 ==> -10 < y - d <= 0
  {
    TruncDiv(y, 10) * 10
  }

  /** `int(int(year) / 100) * 100`: the year rounded toward zero to its century. */
  function Century(y: int): (c: int)
    ensures c % 100 == 0
    ensures y >= 0 ==> 0 <= y - c < 100
    ensures y < 0 ==> -100 < y - c <= 0
  {
    TruncDiv(y, 100) * 100
  }

  /** Each path as a list of strings. */
  function PathLists(paths: seq<seq<string>>): (r: seq<Value>)
    ensures |r| == |paths|
    ensures forall i :: 0 <= i < |paths| ==> r[i] == VList(StrList(paths[i]))
  {
    seq(|paths|, i requires 0 <= i < |paths| => VList(StrList(paths[i])))
  }

  /**
   * `YearFacetExtractor`: the expanded path century > decade > year of a
   * non-empty parsed date.
   */
  function YearFacet(item: Item, env: Env): (r: Value)
    ensures r == VNone <==> ParsedDate(item) == ""
    ensures r != VNone ==> r.VList? && |r.items| == 3
  {
    if ParsedDate(item) == "" then VNone
    else
      var y := env.parseDate(ParsedDate(item)).year;
      VList(PathLists(CollectionExtractors.ExpandPaths([Str(Century(y)), Str(Decade(y)), Str(y)])))
  }

  /**
   * The facet of a year y is [[c], [c, d], [c, d, y]] with its century c and
   * decade d written out, each of which reads back as its number; for a
   * non-negative year c <= d <= y, y - d < 10 and d - c < 100.
   */
  lemma YearFacetPaths(item: Item, env: Env)
    requires ParsedDate(item) != ""
    ensures var y := env.parseDate(ParsedDate(item)).year;
      var c := VStr(Str(Century(y)));
      var d := VStr(Str(Decade(y)));
      YearFacet(item, env) == VList([VList([c]), VList([c, d]), VList([c, d, VStr(Str(y))])])
    ensures var y := env.parseDate(ParsedDate(item)).year;
      && ParseDecimal(Str(Century(y))) == Some(Century(y))
      && ParseDecimal(Str(Decade(y))) == Some(Decade(y))
      && (y >= 0 ==> Century(y) <= Decade(y) <= y && y - Decade(y) < 10 && Decade(y) - Century(y) < 100)
  {
    var y := env.parseDate(ParsedDate(item)).year;
    var c, d := Str(Century(y)), Str(Decade(y));
    ExpandPathsOfThree(c, d, Str(y));
    PathListsOfThree(c, d, Str(y));
    ParseStr(Century(y));
    ParseStr(Decade(y));
    if y >= 0 {
      DecadeWithinCentury(y);
    }
  }

  /** A non-negative year's decade lies between its century and the year. */
  lemma DecadeWithinCentury(y: int)
    requires y >= 0
    ensures Century(y) <= Decade(y) <= y && y - Decade(y) < 10 && Decade(y) - Century(y) < 100
  {
    var q1, q2 := TruncDiv(y, 100), TruncDiv(y, 10);
    assert Century(y) == q1 * 100 && Decade(y) == q2 * 10;
    assert 0 <= y - q1 * 100 < 100 && 0 <= y - q2 * 10 < 10;
    assert q1 * 10 <= q2;
  }

  /** The expanded path of [a, b, c] is [[a], [a, b], [a, b, c]]. */
  lemma ExpandPathsOfThree<T(!new)>(a: T, b: T, c: T)
    ensures CollectionExtractors.ExpandPaths([a, b, c]) == [[a], [a, b], [a, b, c]]
  {
    var p := [a, b, c];
    var ps := CollectionExtractors.ExpandPaths(p);
    assert ps[0] == p[..1] == [a];
    assert ps[1] == p[..2] == [a, b];
    assert ps[2] == p[..3] == p;
  }

  /** Those three paths as lists of strings. */
  lemma PathListsOfThree(a: string, b: string, c: string)
    ensures PathLists([[a], [a, b], [a, b, c]])
         == [VList([VStr(a)]), VList([VStr(a), VStr(b)]), VList([VStr(a), VStr(b), VStr(c)])]
  {
    assert StrList([a]) == [VStr(a)];
    assert StrList([a, b]) == [VStr(a), VStr(b)];
    assert StrList([a, b, c]) == [VStr(a), VStr(b), VStr(c)];
  }

  /** The last component of the facet is what `YearExtractor` gives. */
  lemma YearFacetEndsWithYear(item: Item, env: Env)
    requires ParsedDate(item) != ""
    ensures YearFacet(item, env).items[2] == VList(YearFacet(item, env).items[1].items + [Year(item, env)])
  {
    YearFacetPaths(item, env);
  }

  /** The year 2023 is faceted as 2000 > 2020 > 2023. */
  lemma YearFacetExample(item: Item, env: Env)
    requires ParsedDate(item) != "" && env.parseDate(ParsedDate(item)).year == 2023
    ensures YearFacet(item, env) == VList([
      VList([VStr("2000")]),
      VList([VStr("2000"), VStr("2020")]),
      VList([VStr("2000"), VStr("2020"), VStr("2023")])])
  {
    YearFacetPaths(item, env);
    assert Century(2023) == 2000 && Decade(2023) == 2020;
    assert Digits(2) == "2" && Digits(20) == "20" && Digits(200) == "200" && Digits(2000) == "2000";
    assert Digits(202) == "202" && Digits(2020) == "2020" && Digits(2023) == "2023";
  }

  /** `f"{year:04d}{month:02d}{day:02d}"`. */
  function SortDateText(pd: PartialDate): (r: string)
    ensures ParseDecimal(r).Some?
  {
    var t := Padded(pd.year, 4) + Padded(pd.month, 2) + Padded(pd.day, 2);
    if pd.year >= 0 then
      assert AllDigits(t);
      t
    else
      assert t[1..] == Padded(pd.year, 4)[1..] + Padded(pd.month, 2) + Padded(pd.day, 2);
      assert AllDigits(t[1..]);
      t
  }

  /**
   * `SortDateExtractor`: the date's text read back as an integer, which
   * always succeeds, so that dates compare in calendar order.
   */
  function SortDate(item: Item, env: Env): (r: int)
    ensures var pd := env.parseDate(ParsedDate(item));
      pd.year >= 0 && pd.month < 100 && pd.day < 100 ==> r == pd.year * 10000 + pd.month * 100 + pd.day
  {
    var pd := env.parseDate(ParsedDate(item));
    if pd.year >= 0 && pd.month < 100 && pd.day < 100 then SortDatePacking(pd); ParseDecimal(SortDateText(pd)).value
    else ParseDecimal(SortDateText(pd)).value
  }

  /** The numeral of a month or day below 100 takes two characters and reads back as itself. */
  lemma TwoDigits(n: nat)
    requires n < 100
    ensures |Padded(n, 2)| == 2 && AllDigits(Padded(n, 2)) && DecimalValue(Padded(n, 2)) == n
  {
    assert Pow10(2) == 100;
    PaddedWidth(n, 2);
    PaddedValue(n, 2);
  }

  /** For a non-negative year, the key packs year, month and day as decimal digits. */
  lemma SortDatePacking(pd: PartialDate)
    requires pd.year >= 0 && pd.month < 100 && pd.day < 100
    ensures ParseDecimal(SortDateText(pd)) == Some(pd.year * 10000 + pd.month * 100 + pd.day)
  {
    var a, b, c := Padded(pd.year, 4), Padded(pd.month, 2), Padded(pd.day, 2);
    var t := a + b + c;
    PaddedValue(pd.year, 4);
    assert SortDateText(pd) == t;
    PackedValue(a, pd.month, pd.day);
    assert t[0] == a[0] && IsDigit(t[0]);
    assert ParseDecimal(t) == Some(DecimalValue(t));
  }

  /**
   * For a negative year, the minus sign applies to the whole key: the
   * result is the negation of the packed magnitude, not year * 10000 plus
   * the month and day.
   */
  lemma SortDateNegativeYear(pd: PartialDate)
    requires pd.year < 0 && pd.month < 100 && pd.day < 100
    ensures ParseDecimal(SortDateText(pd)) == Some(-((-pd.year) * 10000 + pd.month * 100 + pd.day))
  {
    var t := SortDateText(pd);
    var x := Padded(pd.year, 4)[1..];
    NegativeKeyText(pd);
    PaddedNegativeValue(pd.year, 4);
    PackedValue(x, pd.month, pd.day);
    ParseNegative(t);
  }

  /** A negative year's key is a minus sign followed by the digits of the year, month and day. */
  lemma NegativeKeyText(pd: PartialDate)
    requires pd.year < 0
    ensures |SortDateText(pd)| >= 2 && SortDateText(pd)[0] == '-'
    ensures SortDateText(pd)[1..] == Padded(pd.year, 4)[1..] + Padded(pd.month, 2) + Padded(pd.day, 2)
  {
    var a, b, c := Padded(pd.year, 4), Padded(pd.month, 2), Padded(pd.day, 2);
    assert SortDateText(pd) == a + b + c;
    assert (a + b + c)[1..] == a[1..] + b + c;
  }

  /** A numeral followed by a two-digit month and day packs them as its last four digits. */
  lemma PackedValue(a: string, month: nat, day: nat)
    requires AllDigits(a) && month < 100 && day < 100
    ensures AllDigits(a + Padded(month, 2) + Padded(day, 2))
    ensures DecimalValue(a + Padded(month, 2) + Padded(day, 2)) == DecimalValue(a) * 10000 + month * 100 + day
  {
    var b, c := Padded(month, 2), Padded(day, 2);
    TwoDigits(month);
    TwoDigits(day);
    assert Pow10(|b|) == 100 && Pow10(|c|) == 100;
    DecimalConcat(a, b);
    DecimalConcat(a + b, c);
    PackDigits(DecimalValue(a), month, day);
  }

  /** `int(s)` of a minus sign followed by digits. */
  lemma ParseNegative(t: string)
    requires |t| >= 2 && t[0] == '-' && AllDigits(t[1..])
    ensures ParseDecimal(t) == Some(-(DecimalValue(t[1..]) as int))
  {
  }

  lemma PackDigits(x: int, month: int, day: int)
    ensures (x * 100 + month) * 100 + day == x * 10000 + month * 100 + day
  {
  }

  /** Keys of non-negative dates compare as the dates do, year first, then month, then day. */
  lemma SortDateOrder(p: PartialDate, q: PartialDate)
    requires 0 <= p.year && p.month < 100 && p.day < 100
    requires 0 <= q.year && q.month < 100 && q.day < 100
    ensures ParseDecimal(SortDateText(p)).value < ParseDecimal(SortDateText(q)).value <==>
      p.year < q.year || (p.year == q.year && (p.month < q.month || (p.month == q.month && p.day < q.day)))
  {
    SortDatePacking(p);
    SortDatePacking(q);
  }

  /** 1999-01-01 sorts as 19990101. */
  lemma SortDateExample()
    ensures ParseDecimal(SortDateText(PartialDate(1999, 1, 1))) == Some(19990101)
  {
    SortDatePacking(PartialDate(1999, 1, 1));
  }
}

=== FILE: extractors.dfy ===
/**
 * The extractor tree: every leaf extractor as a variant of `Kind`, the
 * three composition operators (transformer, multi, chain), and storing an
 * extracted value into a document.
 */
module Extractors {
  import opened PyValue
  import opened Zotero
  import ItemExtractors
  import TagExtractors
  import LanguageExtraction
  import ChildExtractors
  import CollectionExtractors
  import DateExtractors
  import SortKeyExtractors

  /** How `extract_and_store` encodes a value: `encode_single` or `encode_multiple`. */
  datatype Encoding = Single | Multiple

  /** What an extractor does; the leaves carry their configuration. */
  datatype Kind =
    | ItemKey(key: string)
    | DataKey(key: string)
    | TitleOf
    | Relations(relPredicate: string)
    | TypeLabelOf
    | Fields
    | ItemLink(linkKey: string, linkType: string)
    | WebItemUrl
    | AppItemUrl
    | CreatorTypes
    | CreatorsText
    | CollectionNamesText
    | BaseTags(tagFilter: TagExtractors.TagFilter)
    | TagsFacet(tagFilter: TagExtractors.TagFilter)
    | TagsTextOf(tagFilter: TagExtractors.TagFilter)
    | LanguagesOf(config: LanguageExtraction.LanguageConfig)
    | FileAttachmentsOf(gate: ChildExtractors.TagGate, mimeTypes: seq<string>)
    | LinkedUriAttachmentsOf(gate: ChildExtractors.TagGate)
    | AttachmentsFulltextOf(gate: ChildExtractors.TagGate, mimeTypes: seq<string>)
    | NotesTextOf(gate: ChildExtractors.TagGate)
    | RawNotesOf(gate: ChildExtractors.TagGate)
    | RelationsInNotesOf(gate: ChildExtractors.TagGate)
    | CollectionFacetTree
    | InCollection(collectionKey: string, trueOnly: bool, checkSubcollections: bool)
    | TypeFacet
    | YearOf
    | YearFacetOf
    | DataLinkFacet(key: string)
    | SortData(key: string)
    | SortTitleOf
    | SortCreatorOf
    | SortDateOf
    | Transformer(inner: Extractor, transformers: seq<Value -> Value>, skipNone: bool)
    | Multi(children: seq<Extractor>)
    | Chain(children: seq<Extractor>)

  /** An extractor: its kind, the item format it needs, and its encoding. */
  datatype Extractor = Extractor(kind: Kind, format: string, encoding: Encoding)

  /**
   * A transformer has its delegate's format, and the children of a multi or
   * chain extractor have their parent's; the source asserts the latter at
   * extraction time and sets the former at construction.
   */
  predicate WellFormed(e: Extractor) {
    match e.kind
    case Transformer(inner, _, _) => inner.format == e.format && WellFormed(inner)
    case Multi(cs) => forall i :: 0 <= i < |cs| ==> cs[i].format == e.format && WellFormed(cs[i])
    case Chain(cs) => forall i :: 0 <= i < |cs| ==> cs[i].format == e.format && WellFormed(cs[i])
    case _ => true
  }

  /** A leaf extractor's value. */
  function ExtractLeaf(k: Kind, item: Item, ctx: LibraryContext, spec: FieldSpec, env: Env): Value
    requires !k.Transformer? && !k.Multi? && !k.Chain?
  {
    match k
    case ItemKey(key) => ItemExtractors.ItemMember(item, key)
    case DataKey(key) => ItemExtractors.DataMember(item, key)
    case TitleOf => VStr(ItemExtractors.Title(item, ctx))
    case Relations(p) => ItemExtractors.RelationsOf(item, p)
    case TypeLabelOf => ItemExtractors.TypeLabel(item, ctx)
    case Fields => ItemExtractors.FieldsOf(item, ctx)
    case ItemLink(linkKey, linkType) => ItemExtractors.LinkHref(item, linkKey, linkType)
    case WebItemUrl => ItemExtractors.WebItemUrl(item)
    case AppItemUrl => VStr(ItemExtractors.AppItemUrl(item, ctx))
    case CreatorTypes => ItemExtractors.CreatorTypesOf(item, ctx)
    case CreatorsText => ItemExtractors.Creators(item, env)
    case CollectionNamesText => ItemExtractors.CollectionNames(item, ctx, env)
    case BaseTags(f) => TagExtractors.TagSet(item, f)
    case TagsFacet(f) => TagExtractors.TagSet(item, f)
    case TagsTextOf(f) => TagExtractors.TagsText(item, f, env)
    case LanguagesOf(cfg) => LanguageExtraction.Languages(item, cfg)
    case FileAttachmentsOf(gate, mimeTypes) => ChildExtractors.FileAttachments(item, gate, mimeTypes)
    case LinkedUriAttachmentsOf(gate) => ChildExtractors.LinkedUriAttachments(item, gate)
    case AttachmentsFulltextOf(gate, mimeTypes) => ChildExtractors.AttachmentsFulltext(item, gate, mimeTypes, env)
    case NotesTextOf(gate) => ChildExtractors.NotesText(item, gate, env)
    case RawNotesOf(gate) => ChildExtractors.RawNotes(item, gate)
    case RelationsInNotesOf(gate) => ChildExtractors.RelationsInNotes(item, gate, env)
    case CollectionFacetTree => CollectionExtractors.CollectionFacetTree(item, ctx, spec)
    case InCollection(key, trueOnly, checkSub) => CollectionExtractors.InCollection(item, ctx, key, trueOnly, checkSub)
    case TypeFacet => ItemExtractors.TypeFacet(item, ctx)
    case YearOf => DateExtractors.Year(item, env)
    case YearFacetOf => DateExtractors.YearFacet(item, env)
    case DataLinkFacet(key) => ItemExtractors.HasLinkFacet(item, key)
    case SortData(key) => VStr(SortKeyExtractors.SortItemData(item, key, env))
    case SortTitleOf => VStr(SortKeyExtractors.SortTitle(item, ctx, env))
    case SortCreatorOf => VStr(SortKeyExtractors.SortCreator(item, ctx, env))
    case SortDateOf => VInt(DateExtractors.SortDate(item, env))
  }

  /** The transformers applied left to right: `for t in ts: value = t(value)`. */
  function Compose(ts: seq<Value -> Value>, v: Value): Value {
    if ts == [] then v else Compose(ts[1..], ts[0](v))
  }

  /** Applying two transformer lists in turn is applying their concatenation. */
  lemma {:induction false} ComposeAppend(a: seq<Value -> Value>, b: seq<Value -> Value>, v: Value)
    ensures Compose(a + b, v) == Compose(b, Compose(a, v))
  {
    if a != [] {
      assert (a + b)[0] == a[0];
      assert (a + b)[1..] == a[1..] + b;
      ComposeAppend(a[1..], b, a[0](v));
    } else {
      assert a + b == b;
    }
  }

  /**
   * `TransformerExtractor.apply_transformers`: None passes through untouched
   * when `skipNone` is set; any other value goes through every transformer.
   */
  function ApplyTransformers(ts: seq<Value -> Value>, v: Value, skipNone: bool): (r: Value)
    ensures skipNone && v == VNone ==> r == VNone
    ensures ts == [] ==> r == v
    ensures (v != VNone || !skipNone) ==> r == Compose(ts, v)
  {
    if v != VNone || !skipNone then Compose(ts, v) else v
  }

  /** `ChainExtractor`: the first result that is not None, or None. */
  function FirstNonNone(vs: seq<Value>): (r: Value)
    ensures r == VNone <==> forall i :: 0 <= i < |vs| ==> vs[i] == VNone
    ensures r != VNone ==> exists i :: 0 <= i < |vs| && vs[i] == r && forall j :: 0 <= j < i ==> vs[j] == VNone
  {
    if vs == [] then VNone
    else if vs[0] != VNone then vs[0]
    else
      var r := FirstNonNone(vs[1..]);
      assert forall i :: 0 < i < |vs| ==> vs[i] == vs[1..][i - 1];
      if r == VNone then r
      else
        var k :| 0 <= k < |vs[1..]| && vs[1..][k] == r && forall j :: 0 <= j < k ==> vs[1..][j] == VNone;
        assert vs[k + 1] == r;
        r
  }

  /** The chain's result is decided by a prefix: what follows the first non-None result is never consulted. */
  lemma {:induction false} FirstNonNoneAppend(a: seq<Value>, b: seq<Value>)
    ensures FirstNonNone(a + b) == if FirstNonNone(a) != VNone then FirstNonNone(a) else FirstNonNone(b)
  {
    if a == [] {
      assert a + b == b;
    } else {
      assert (a + b)[0] == a[0];
      assert (a + b)[1..] == a[1..] + b;
      FirstNonNoneAppend(a[1..], b);
    }
  }

  /**
   * What `MultiExtractor` takes from one result: the elements of a non-string
   * iterable, a truthy scalar (a string included) itself, nothing otherwise.
   */
  function Contribution(v: Value, order: SetOrder): (r: seq<Value>)
    ensures IsCollection(v) ==> Elements(v, order) == Some(r)
    ensures !IsCollection(v) ==> (r == [] <==> !Truthy(v))
    ensures !IsCollection(v) && Truthy(v) ==> r == [v]
  {
    if IsCollection(v) then Elements(v, order).value
    else if Truthy(v) then [v]
    else []
  }

  /** The contributions of all results, in result order. */
  function Contributions(vs: seq<Value>, order: SetOrder): (r: seq<Value>)
    ensures forall x :: x in r <==> exists i :: 0 <= i < |vs| && x in Contribution(vs[i], order)
    ensures r == [] <==> forall i :: 0 <= i < |vs| ==> Contribution(vs[i], order) == []
  {
    if vs == [] then []
    else
      var rest := Contributions(vs[1..], order);
      assert forall i :: 0 < i < |vs| ==> vs[i] == vs[1..][i - 1];
      assert forall i :: 0 <= i < |vs[1..]| ==> vs[1..][i] == vs[i + 1];
      Contribution(vs[0], order) + rest
  }

  /** Accumulating results one after the other is accumulating them together. */
  lemma {:induction false} ContributionsAppend(a: seq<Value>, b: seq<Value>, order: SetOrder)
    ensures Contributions(a + b, order) == Contributions(a, order) + Contributions(b, order)
  {
    if a == [] {
      assert a + b == b;
    } else {
      assert (a + b)[0] == a[0];
      assert (a + b)[1..] == a[1..] + b;
      ContributionsAppend(a[1..], b, order);
    }
  }

  /** `values or None`. */
  function Accumulate(vs: seq<Value>, order: SetOrder): (r: Value)
    ensures r == VNone <==> forall i :: 0 <= i < |vs| ==> Contribution(vs[i], order) == []
    ensures r != VNone ==> r.VList? && r.items == Contributions(vs, order)
  {
    var xs := Contributions(vs, order);
    if xs == [] then VNone else VList(xs)
  }

  /**
   * `extractor.extract(item, library_context, spec)` over an extractor tree
   * whose leaves `leaf` evaluates; `order` is the set iteration order the
   * multi extractor iterates sets in.
   */
  function Eval(e: Extractor, leaf: Kind -> Value, order: SetOrder): (r: Value)
    requires WellFormed(e)
    ensures e.kind.Chain? && e.kind.children == [] ==> r == VNone
    ensures e.kind.Multi? && e.kind.children == [] ==> r == VNone
    ensures e.kind.Multi? ==> r == VNone || r.VList?
    ensures e.kind.Transformer? && e.kind.skipNone && Eval(e.kind.inner, leaf, order) == VNone ==> r == VNone
    decreases e
  {
    match e.kind
    case Transformer(inner, ts, skipNone) =>
      ApplyTransformers(ts, Eval(inner, leaf, order), skipNone)
    case Multi(cs) =>
      Accumulate(EvalAll(cs, leaf, order), order)
    case Chain(cs) =>
      FirstNonNone(EvalAll(cs, leaf, order))
    case _ => leaf(e.kind)
  }

  /** The results of `cs`, in order. */
  function EvalAll(cs: seq<Extractor>, leaf: Kind -> Value, order: SetOrder): (r: seq<Value>)
    requires forall i :: 0 <= i < |cs| ==> WellFormed(cs[i])
    ensures |r| == |cs|
    ensures forall i :: 0 <= i < |cs| ==> r[i] == Eval(cs[i], leaf, order)
    decreases cs
  {
    seq(|cs|, i requires 0 <= i < |cs| => Eval(cs[i], leaf, order))
  }

  /** The leaf extractors evaluated on one item. */
  function Leaves(item: Item, ctx: LibraryContext, spec: FieldSpec, env: Env): Kind -> Value {
    (k: Kind) => if k.Transformer? || k.Multi? || k.Chain? then VNone else ExtractLeaf(k, item, ctx, spec, env)
  }

  /** `extractor.extract(item, library_context, spec)`. */
  function Extract(e: Extractor, item: Item, ctx: LibraryContext, spec: FieldSpec, env: Env): Value
    requires WellFormed(e)
  {
    Eval(e, Leaves(item, ctx, spec, env), env.order)
  }

  /** A leaf extractor extracts what its own extractor function computes. */
  lemma ExtractOfLeaf(e: Extractor, item: Item, ctx: LibraryContext, spec: FieldSpec, env: Env)
    requires !e.kind.Transformer? && !e.kind.Multi? && !e.kind.Chain?
    ensures WellFormed(e)
    ensures Extract(e, item, ctx, spec, env) == ExtractLeaf(e.kind, item, ctx, spec, env)
  {
  }

  /**
   * The tree's membership leaf uses the corrected `InCollection`. With
   * subcollections checked, it agrees with the code as written.
   */
  lemma MembershipLeafAgreesWithSource(item: Item, ctx: LibraryContext, spec: FieldSpec, env: Env,
                                       key: string, trueOnly: bool, format: string, enc: Encoding)
    ensures Extract(Extractor(InCollection(key, trueOnly, true), format, enc), item, ctx, spec, env)
         == CollectionExtractors.InCollectionAsWritten(item, ctx, key, trueOnly, true)
  {
    ExtractOfLeaf(Extractor(InCollection(key, trueOnly, true), format, enc), item, ctx, spec, env);
    MembershipLeaf(item, ctx, spec, env, key, trueOnly);
  }

  lemma MembershipLeaf(item: Item, ctx: LibraryContext, spec: FieldSpec, env: Env, key: string, trueOnly: bool)
    ensures ExtractLeaf(InCollection(key, trueOnly, true), item, ctx, spec, env)
         == CollectionExtractors.InCollectionAsWritten(item, ctx, key, trueOnly, true)
  {
    assert ExtractLeaf(InCollection(key, trueOnly, true), item, ctx, spec, env)
        == CollectionExtractors.InCollection(item, ctx, key, trueOnly, true);
    CollectionExtractors.SubcollectionsAsWrittenAgree(item, ctx, key, trueOnly);
  }

  /**
   * The tree's data sort-key leaf uses the corrected `SortItemData`. For a
   * present field, it agrees with the code as written.
   */
  lemma SortDataLeafAgreesWithSource(item: Item, ctx: LibraryContext, spec: FieldSpec, env: Env,
                                     field: string, format: string, enc: Encoding)
    requires field in item.data.fields
    ensures Extract(Extractor(SortData(field), format, enc), item, ctx, spec, env)
         == VStr(SortKeyExtractors.SortItemDataAsWritten(item, field, env))
  {
    ExtractOfLeaf(Extractor(SortData(field), format, enc), item, ctx, spec, env);
    SortDataLeaf(item, ctx, spec, env, field);
  }

  lemma SortDataLeaf(item: Item, ctx: LibraryContext, spec: FieldSpec, env: Env, field: string)
    requires field in item.data.fields
    ensures ExtractLeaf(SortData(field), item, ctx, spec, env) == VStr(SortKeyExtractors.SortItemDataAsWritten(item, field, env))
  {
    assert ExtractLeaf(SortData(field), item, ctx, spec, env) == VStr(SortKeyExtractors.SortItemData(item, field, env));
  }

  /**
   * A chain returns the result of the first child whose result is not None,
   * and None exactly when every child returns None.
   */
  lemma ChainFirstNonNone(e: Extractor, leaf: Kind -> Value, order: SetOrder)
    requires WellFormed(e) && e.kind.Chain?
    ensures var cs := e.kind.children;
      Eval(e, leaf, order) == VNone <==> forall i :: 0 <= i < |cs| ==> Eval(cs[i], leaf, order) == VNone
    ensures var cs := e.kind.children; var r := Eval(e, leaf, order);
      r != VNone ==> exists i ::
        && 0 <= i < |cs|
        && Eval(cs[i], leaf, order) == r
        && forall j :: 0 <= j < i ==> Eval(cs[j], leaf, order) == VNone
  {
    var rs := EvalAll(e.kind.children, leaf, order);
    assert Eval(e, leaf, order) == FirstNonNone(rs);
  }

  /** The results of a concatenation of children are the concatenated results. */
  lemma EvalAllAppend(a: seq<Extractor>, b: seq<Extractor>, leaf: Kind -> Value, order: SetOrder)
    requires forall i :: 0 <= i < |a| ==> WellFormed(a[i])
    requires forall i :: 0 <= i < |b| ==> WellFormed(b[i])
    ensures forall i :: 0 <= i < |a + b| ==> WellFormed((a + b)[i])
    ensures EvalAll(a + b, leaf, order) == EvalAll(a, leaf, order) + EvalAll(b, leaf, order)
  {
    assert forall i :: 0 <= i < |a + b| ==> (a + b)[i] == if i < |a| then a[i] else b[i - |a|];
  }

  /**
   * The children after the first one with a result do not affect a chain:
   * it returns what the chain cut after that child returns.
   */
  lemma ChainIgnoresLaterChildren(e: Extractor, i: nat, leaf: Kind -> Value, order: SetOrder)
    requires WellFormed(e) && e.kind.Chain? && i < |e.kind.children|
    requires Eval(e.kind.children[i], leaf, order) != VNone
    ensures WellFormed(e.(kind := Chain(e.kind.children[..i + 1])))
    ensures Eval(e, leaf, order) == Eval(e.(kind := Chain(e.kind.children[..i + 1])), leaf, order)
  {
    var cs := e.kind.children;
    var a, b := cs[..i + 1], cs[i + 1..];
    assert ChildrenOf(a, e.format) && ChildrenOf(b, e.format) by {
      assert forall k :: 0 <= k < |a| ==> a[k] == cs[k];
      assert forall k :: 0 <= k < |b| ==> b[k] == cs[i + 1 + k];
    }
    var ra, rb := EvalAll(a, leaf, order), EvalAll(b, leaf, order);
    assert FirstNonNone(ra) != VNone by {
      assert ra[i] == Eval(cs[i], leaf, order);
    }
    calc {
      Eval(e, leaf, order);
    == { assert e == Extractor(Chain(a + b), e.format, e.encoding) by { assert cs == a + b; }
         ChildrenOfAppend(a, b, e.format);
         ChainValue(a + b, e.format, e.encoding, leaf, order); }
      FirstNonNone(EvalAll(a + b, leaf, order));
    == { EvalAllAppend(a, b, leaf, order); }
      FirstNonNone(ra + rb);
    == { FirstNonNoneAppend(ra, rb); }
      FirstNonNone(ra);
    == { ChainValue(a, e.format, e.encoding, leaf, order); }
      Eval(e.(kind := Chain(a)), leaf, order);
    }
  }

  /** The children of a well-formed chain or multi extractor share a format and are well-formed. */
  predicate ChildrenOf(cs: seq<Extractor>, format: string) {
    forall i :: 0 <= i < |cs| ==> cs[i].format == format && WellFormed(cs[i])
  }

  lemma {:induction false} ChildrenOfAppend(a: seq<Extractor>, b: seq<Extractor>, format: string)
    requires ChildrenOf(a, format) && ChildrenOf(b, format)
    ensures ChildrenOf(a + b, format)
  {
    assert forall i :: 0 <= i < |a + b| ==> (a + b)[i] == if i < |a| then a[i] else b[i - |a|];
  }

  /** A chain's value in terms of its children's results. */
  lemma ChainValue(cs: seq<Extractor>, format: string, enc: Encoding, leaf: Kind -> Value, order: SetOrder)
    requires ChildrenOf(cs, format)
    ensures WellFormed(Extractor(Chain(cs), format, enc))
    ensures Eval(Extractor(Chain(cs), format, enc), leaf, order) == FirstNonNone(EvalAll(cs, leaf, order))
  {
  }

  /** A multi extractor's value in terms of its children's results. */
  lemma MultiValue(cs: seq<Extractor>, format: string, enc: Encoding, leaf: Kind -> Value, order: SetOrder)
    requires ChildrenOf(cs, format)
    ensures WellFormed(Extractor(Multi(cs), format, enc))
    ensures Eval(Extractor(Multi(cs), format, enc), leaf, order) == Accumulate(EvalAll(cs, leaf, order), order)
  {
  }

  lemma FirstNonNoneOfTwo(x: Value, y: Value)
    ensures FirstNonNone([x, y]) == if x != VNone then x else y
  {
    assert [x, y][1..] == [y];
    assert [y][1..] == [];
  }

  /** The results of two children. */
  lemma EvalAllPair(x: Extractor, y: Extractor, leaf: Kind -> Value, order: SetOrder)
    requires WellFormed(x) && WellFormed(y)
    ensures EvalAll([x, y], leaf, order) == [Eval(x, leaf, order), Eval(y, leaf, order)]
  {
  }

  /**
   * Chains nest: a chain of two chains over the same format behaves as one
   * chain over all their children.
   */
  lemma ChainOfChains(a: seq<Extractor>, b: seq<Extractor>, format: string, enc: Encoding,
                      leaf: Kind -> Value, order: SetOrder)
    requires ChildrenOf(a, format) && ChildrenOf(b, format)
    ensures WellFormed(Extractor(Chain(a + b), format, enc))
    ensures WellFormed(Extractor(Chain([Extractor(Chain(a), format, enc), Extractor(Chain(b), format, enc)]), format, enc))
    ensures Eval(Extractor(Chain(a + b), format, enc), leaf, order)
         == Eval(Extractor(Chain([Extractor(Chain(a), format, enc), Extractor(Chain(b), format, enc)]), format, enc), leaf, order)
  {
    var ca, cb := Extractor(Chain(a), format, enc), Extractor(Chain(b), format, enc);
    ChainValue(a, format, enc, leaf, order);
    ChainValue(b, format, enc, leaf, order);
    ChainOfTwo(ca, cb, format, enc, leaf, order);
    ChildrenOfAppend(a, b, format);
    ChainValue(a + b, format, enc, leaf, order);
    ChainResultsAppend(a, b, leaf, order);
  }

  /** A chain of two children gives the first non-None of their two values. */
  lemma ChainOfTwo(x: Extractor, y: Extractor, format: string, enc: Encoding, leaf: Kind -> Value, order: SetOrder)
    requires x.format == format && WellFormed(x)
    requires y.format == format && WellFormed(y)
    ensures WellFormed(Extractor(Chain([x, y]), format, enc))
    ensures Eval(Extractor(Chain([x, y]), format, enc), leaf, order)
         == FirstNonNone([Eval(x, leaf, order), Eval(y, leaf, order)])
  {
    assert ChildrenOf([x, y], format);
    ChainValue([x, y], format, enc, leaf, order);
    EvalAllPair(x, y, leaf, order);
  }

  /** The first non-None result of two child lists, taken together or list by list. */
  lemma ChainResultsAppend(a: seq<Extractor>, b: seq<Extractor>, leaf: Kind -> Value, order: SetOrder)
    requires forall i :: 0 <= i < |a| ==> WellFormed(a[i])
    requires forall i :: 0 <= i < |b| ==> WellFormed(b[i])
    ensures FirstNonNone(EvalAll(a + b, leaf, order))
         == FirstNonNone([FirstNonNone(EvalAll(a, leaf, order)), FirstNonNone(EvalAll(b, leaf, order))])
  {
    EvalAllAppend(a, b, leaf, order);
    FlattenFirstNonNone(EvalAll(a, leaf, order), EvalAll(b, leaf, order));
  }

  /** The first non-None of two lists' first non-None values is that of their concatenation. */
  lemma FlattenFirstNonNone(ra: seq<Value>, rb: seq<Value>)
    ensures FirstNonNone(ra + rb) == FirstNonNone([FirstNonNone(ra), FirstNonNone(rb)])
  {
    FirstNonNoneAppend(ra, rb);
    FirstNonNoneOfTwo(FirstNonNone(ra), FirstNonNone(rb));
  }

  /**
   * A multi extractor returns, in child order, the elements of every
   * non-string iterable result and every truthy scalar result, and None
   * exactly when there are none.
   */
  lemma MultiAccumulates(e: Extractor, leaf: Kind -> Value, order: SetOrder)
    requires WellFormed(e) && e.kind.Multi?
    ensures var cs := e.kind.children; var r := Eval(e, leaf, order);
      && (r == VNone <==> forall i :: 0 <= i < |cs| ==> Contribution(Eval(cs[i], leaf, order), order) == [])
      && (r != VNone ==> r.VList?)
      && (r != VNone ==> forall x :: x in r.items <==>
            exists i :: 0 <= i < |cs| && x in Contribution(Eval(cs[i], leaf, order), order))
  {
    var rs := EvalAll(e.kind.children, leaf, order);
    assert Eval(e, leaf, order) == Accumulate(rs, order);
  }

  /** Splitting a multi extractor's children in two splits its result list in two. */
  lemma MultiAppend(a: seq<Extractor>, b: seq<Extractor>, format: string, enc: Encoding,
                    leaf: Kind -> Value, order: SetOrder)
    requires ChildrenOf(a, format) && ChildrenOf(b, format)
    requires Eval(Extractor(Multi(a), format, enc), leaf, order) != VNone
    requires Eval(Extractor(Multi(b), format, enc), leaf, order) != VNone
    ensures WellFormed(Extractor(Multi(a + b), format, enc))
    ensures Eval(Extractor(Multi(a + b), format, enc), leaf, order)
         == VList(Eval(Extractor(Multi(a), format, enc), leaf, order).items
                  + Eval(Extractor(Multi(b), format, enc), leaf, order).items)
  {
    MultiValue(a, format, enc, leaf, order);
    MultiValue(b, format, enc, leaf, order);
    ChildrenOfAppend(a, b, format);
    MultiValue(a + b, format, enc, leaf, order);
    EvalAllAppend(a, b, leaf, order);
    ContributionsAppend(EvalAll(a, leaf, order), EvalAll(b, leaf, order), order);
  }

  /**
   * Without skipping None, a transformer around a transformer is one
   * transformer applying both lists in turn.
   */
  lemma TransformerFusion(inner: Extractor, a: seq<Value -> Value>, b: seq<Value -> Value>,
                          leaf: Kind -> Value, order: SetOrder)
    requires WellFormed(inner)
    ensures var t := Extractor(Transformer(inner, a, false), inner.format, inner.encoding);
      && WellFormed(Extractor(Transformer(t, b, false), inner.format, inner.encoding))
      && Eval(Extractor(Transformer(t, b, false), inner.format, inner.encoding), leaf, order)
         == Eval(Extractor(Transformer(inner, a + b, false), inner.format, inner.encoding), leaf, order)
  {
    var t := Extractor(Transformer(inner, a, false), inner.format, inner.encoding);
    TransformerValue(inner, a, inner.format, inner.encoding, leaf, order);
    TransformerValue(t, b, inner.format, inner.encoding, leaf, order);
    TransformerValue(inner, a + b, inner.format, inner.encoding, leaf, order);
    ComposeAppend(a, b, Eval(inner, leaf, order));
  }

  /** A transformer that does not skip None applies its whole list to its delegate's value. */
  lemma TransformerValue(inner: Extractor, ts: seq<Value -> Value>, format: string, enc: Encoding,
                         leaf: Kind -> Value, order: SetOrder)
    requires WellFormed(inner) && inner.format == format
    ensures WellFormed(Extractor(Transformer(inner, ts, false), format, enc))
    ensures Eval(Extractor(Transformer(inner, ts, false), format, enc), leaf, order) == Compose(ts, Eval(inner, leaf, order))
  {
  }

  /**
   * With None skipped, a transformer returns None unchanged, and any other
   * value of its delegate goes through every transformer in turn.
   */
  lemma TransformerSkipsNone(e: Extractor, leaf: Kind -> Value, order: SetOrder)
    requires WellFormed(e) && e.kind.Transformer? && e.kind.skipNone
    ensures var v := Eval(e.kind.inner, leaf, order);
      Eval(e, leaf, order) == if v == VNone then VNone else Compose(e.kind.transformers, v)
  {
  }

  /** The outcome of storing: the new document, or the TypeError of encoding a non-iterable as multiple values. */
  datatype Result<T> = Ok(value: T) | TypeError

  /** `encode_single` or `encode_multiple`; None where iterating the value raises TypeError. */
  function Encode(v: Value, spec: FieldSpec, enc: Encoding, order: SetOrder): (r: Option<Value>)
    ensures enc == Single ==> r == Some(spec.encode(v))
    ensures enc == Multiple ==> (r.None? <==> Elements(v, order).None?)
    ensures enc == Multiple && r.Some? ==>
      && r.value.VList?
      && |r.value.items| == |Elements(v, order).value|
      && forall i :: 0 <= i < |r.value.items| ==> r.value.items[i] == spec.encode(Elements(v, order).value[i])
  {
    match enc
    case Single => Some(spec.encode(v))
    case Multiple =>
      match Elements(v, order)
      case None => None
      case Some(xs) => Some(VList(seq(|xs|, i requires 0 <= i < |xs| => spec.encode(xs[i]))))
  }

  /**
   * Storing an extracted value: when it is not None, its encoding is stored
   * under the field's key and nothing else changes; when it is None, the
   * document is returned as it was.
   */
  function StoreValue(v: Value, doc: map<string, Value>, spec: FieldSpec, enc: Encoding, order: SetOrder)
    : (r: Result<map<string, Value>>)
    ensures v == VNone ==> r == Ok(doc)
    ensures r.TypeError? <==> enc == Multiple && (v.VBool? || v.VInt?)
    ensures r.Ok? ==> forall k :: k != spec.key ==> (k in r.value <==> k in doc)
    ensures r.Ok? ==> forall k :: k != spec.key && k in doc ==> r.value[k] == doc[k]
    ensures r.Ok? && v != VNone ==> spec.key in r.value && Some(r.value[spec.key]) == Encode(v, spec, enc, order)
  {
    if v == VNone then Ok(doc)
    else
      match Encode(v, spec, enc, order)
      case None => TypeError
      case Some(x) => Ok(doc[spec.key := x])
  }

  /** Storing is idempotent: storing the same value again into the stored document changes nothing. */
  lemma StoreValueIdempotent(v: Value, doc: map<string, Value>, spec: FieldSpec, enc: Encoding, order: SetOrder)
    requires StoreValue(v, doc, spec, enc, order).Ok?
    ensures StoreValue(v, StoreValue(v, doc, spec, enc, order).value, spec, enc, order)
         == StoreValue(v, doc, spec, enc, order)
  {
    var d1 := StoreValue(v, doc, spec, enc, order).value;
    if v != VNone {
      var x := Encode(v, spec, enc, order).value;
      assert d1 == doc[spec.key := x];
      assert d1[spec.key := x] == d1;
    }
  }

  /** `Extractor.extract_and_store`: the extracted value, stored. */
  function ExtractAndStore(e: Extractor, doc: map<string, Value>, item: Item, ctx: LibraryContext,
                           spec: FieldSpec, env: Env): Result<map<string, Value>>
    requires WellFormed(e)
  {
    StoreValue(Extract(e, item, ctx, spec, env), doc, spec, e.encoding, env.order)
  }

  /** Extracting and storing twice gives the document of storing once. */
  lemma ExtractAndStoreIdempotent(e: Extractor, doc: map<string, Value>, item: Item, ctx: LibraryContext,
                                  spec: FieldSpec, env: Env)
    requires WellFormed(e)
    requires ExtractAndStore(e, doc, item, ctx, spec, env).Ok?
    ensures ExtractAndStore(e, ExtractAndStore(e, doc, item, ctx, spec, env).value, item, ctx, spec, env)
         == ExtractAndStore(e, doc, item, ctx, spec, env)
  {
    StoreValueIdempotent(Extract(e, item, ctx, spec, env), doc, spec, e.encoding, env.order);
  }
}

=== FILE: items.dfy ===
/**
 * Extractors that read an item's own members and the library's item-type
 * and creator-type schemas: key lookups, title, type label and facet,
 * field and creator-type metadata, creators, collection names, links and
 * relations.
 */
module ItemExtractors {
  import opened PyValue
  import opened PyStr
  import opened Sorting
  import opened Zotero

  /** `item.get(key)` for the key and the other top-level scalar members. */
  function ItemMember(item: Item, key: string): (r: Value)
    ensures key == "key" ==> r == VStr(item.key)
    ensures key != "key" ==> (r == VNone <==> key !in item.top || item.top[key] == VNone)
    ensures key != "key" && key in item.top ==> r == item.top[key]
  {
    if key == "key" then VStr(item.key)
    else match Get(item.top, key)
      case Some(v) => v
      case None => VNone
  }

  /** `item["data"].get(key)`. */
  function DataMember(item: Item, key: string): (r: Value)
    ensures r == VNone <==> key !in item.data.fields
    ensures r != VNone ==> r == VStr(item.data.fields[key])
  {
    match Field(item.data, key)
    case Some(s) => VStr(s)
    case None => VNone
  }

  /** `bool(item.get("data", {}).get("itemType"))`, with the type itself. */
  predicate HasType(d: Data) {
    HasText(d, "itemType")
  }

  /**
   * The title: the item's value of the first field its type's schema lists,
   * or "" when the field is absent, for notes and annotations, and for
   * types without a schema.
   */
  function Title(item: Item, ctx: LibraryContext): (r: string)
    ensures ItemType(item.data) in {Some("note"), Some("annotation")} ==> r == ""
    ensures (ItemType(item.data).None? || ItemType(item.data).value !in ctx.itemFields) ==> r == ""
    ensures r != "" ==> exists f :: f in item.data.fields && r == item.data.fields[f]
  {
    var t := ItemType(item.data);
    if t.Some? && t.value != "annotation" && t.value != "note"
       && t.value in ctx.itemFields && ctx.itemFields[t.value] != []
    then
      match Get(ctx.itemFields[t.value][0], "field")
      case Some(f) => FieldOr(item.data, f, "")
      case None => ""
    else ""
  }

  /** The title is the value of the type's first schema field, whatever that field is called. */
  lemma TitleIsFirstSchemaField(item: Item, ctx: LibraryContext, t: string, f: string)
    requires ItemType(item.data) == Some(t) && t != "note" && t != "annotation"
    requires t in ctx.itemFields && |ctx.itemFields[t]| >= 1
    requires Get(ctx.itemFields[t][0], "field") == Some(f)
    requires f in item.data.fields
    ensures Title(item, ctx) == item.data.fields[f]
  {
  }

  /** The label of the item's type, or None when the type is missing or unknown. */
  function TypeLabel(item: Item, ctx: LibraryContext): (r: Value)
    ensures r != VNone <==> HasType(item.data) && item.data.fields["itemType"] in ctx.itemTypes
    ensures r != VNone ==> r == VStr(ctx.itemTypes[item.data.fields["itemType"]])
  {
    var t := ItemType(item.data);
    if t.Some? && t.value != "" && t.value in ctx.itemTypes then VStr(ctx.itemTypes[t.value])
    else VNone
  }

  /** A schema entry as a Python dict of strings. */
  function EntryValue(e: SchemaEntry): (r: Value)
    ensures r.VDict? && r.entries.Keys == e.Keys
  {
    VDict(map k | k in e :: VStr(e[k]))
  }

  /** The dictionaries of a list of schema entries, position by position. */
  function EntryValues(es: seq<SchemaEntry>): (r: seq<Value>)
    ensures |r| == |es| && forall i :: 0 <= i < |es| ==> r[i] == EntryValue(es[i])
    ensures forall v :: v in r <==> exists e :: e in es && v == EntryValue(e)
  {
    var r := seq(|es|, i requires 0 <= i < |es| => EntryValue(es[i]));
    assert forall e :: e in es ==> EntryValue(e) in r by {
      forall e | e in es ensures EntryValue(e) in r {
        var i :| 0 <= i < |es| && es[i] == e;
        assert r[i] == EntryValue(e);
      }
    }
    r
  }

  /** The entries of `schema` whose `field` is a member of `d`, in schema order. */
  function PresentFields(schema: seq<SchemaEntry>, d: Data): (r: seq<SchemaEntry>)
    ensures forall e :: e in r <==> e in schema && "field" in e && e["field"] in d.fields
    ensures |r| <= |schema|
  {
    if schema == [] then []
    else
      var rest := PresentFields(schema[1..], d);
      var e := schema[0];
      assert forall x :: x in schema <==> x == e || x in schema[1..];
      if "field" in e && e["field"] in d.fields then [e] + rest else rest
  }

  /**
   * Field metadata of the item's type, restricted to the fields the item
   * has; None when the type is missing or has no schema. The list may be
   * empty.
   */
  function FieldsOf(item: Item, ctx: LibraryContext): (r: Value)
    ensures r != VNone <==> HasType(item.data) && item.data.fields["itemType"] in ctx.itemFields
    ensures r != VNone ==>
      r.VList? && |r.items| == |PresentFields(ctx.itemFields[item.data.fields["itemType"]], item.data)|
    ensures r != VNone ==> forall i :: 0 <= i < |r.items| ==>
      r.items[i] == EntryValue(PresentFields(ctx.itemFields[item.data.fields["itemType"]], item.data)[i])
  {
    var t := ItemType(item.data);
    if t.Some? && t.value != "" && t.value in ctx.itemFields then
      var kept := PresentFields(ctx.itemFields[t.value], item.data);
      VList(seq(|kept|, i requires 0 <= i < |kept| => EntryValue(kept[i])))
    else VNone
  }

  /**
   * The retained metadata is exactly that of the schema entries whose field
   * the item has.
   */
  lemma FieldsOfMembers(item: Item, ctx: LibraryContext, v: Value)
    requires FieldsOf(item, ctx) != VNone
    ensures v in FieldsOf(item, ctx).items <==>
      exists e :: e in ctx.itemFields[item.data.fields["itemType"]] && "field" in e && e["field"] in item.data.fields
        && v == EntryValue(e)
  {
    var schema := ctx.itemFields[item.data.fields["itemType"]];
    var kept := PresentFields(schema, item.data);
    var vs := FieldsOf(item, ctx).items;
    if v in vs {
      var i :| 0 <= i < |vs| && vs[i] == v;
      assert kept[i] in kept;
    } else {
      forall e | e in kept
        ensures v != EntryValue(e)
      {
        var i :| 0 <= i < |kept| && kept[i] == e;
        assert vs[i] == EntryValue(e);
      }
    }
  }

  /** Some creator of `creators` has the (non-empty) creator type named by `entry`. */
  predicate TypeUsed(entry: SchemaEntry, creators: seq<Creator>) {
    exists i :: 0 <= i < |creators| && creators[i].creatorType.Some?
      && creators[i].creatorType.value != ""
      && Get(entry, "creatorType") == creators[i].creatorType
  }

  /** The creator-type entries used by some creator, in schema order. */
  function UsedCreatorTypes(schema: seq<SchemaEntry>, creators: seq<Creator>): (r: seq<SchemaEntry>)
    ensures forall e :: e in r <==> e in schema && TypeUsed(e, creators)
    ensures |r| <= |schema|
  {
    if schema == [] then []
    else
      var rest := UsedCreatorTypes(schema[1..], creators);
      assert forall x :: x in schema <==> x == schema[0] || x in schema[1..];
      if TypeUsed(schema[0], creators) then [schema[0]] + rest else rest
  }

  /** The used entries keep their schema order: the i-th and j-th come from schema positions a < b. */
  lemma {:induction false} UsedCreatorTypesOrder(schema: seq<SchemaEntry>, creators: seq<Creator>, i: nat, j: nat)
    returns (a: nat, b: nat)
    requires i < j < |UsedCreatorTypes(schema, creators)|
    ensures a < b < |schema|
    ensures schema[a] == UsedCreatorTypes(schema, creators)[i] && schema[b] == UsedCreatorTypes(schema, creators)[j]
  {
    var r := UsedCreatorTypes(schema, creators);
    var rest := UsedCreatorTypes(schema[1..], creators);
    if TypeUsed(schema[0], creators) {
      assert r == [schema[0]] + rest;
      if i == 0 {
        assert rest[j - 1] in rest;
        var k :| 0 <= k < |schema[1..]| && schema[1..][k] == rest[j - 1];
        a, b := 0, k + 1;
      } else {
        var a', b' := UsedCreatorTypesOrder(schema[1..], creators, i - 1, j - 1);
        a, b := a' + 1, b' + 1;
      }
    } else {
      assert r == rest;
      var a', b' := UsedCreatorTypesOrder(schema[1..], creators, i, j);
      a, b := a' + 1, b' + 1;
    }
  }

  /**
   * Creator-type metadata of the item's type, restricted to the creator
   * types that the item's creators use; None when there is none or the
   * item's type is missing or unknown.
   */
  function CreatorTypesOf(item: Item, ctx: LibraryContext): (r: Value)
    ensures r != VNone <==>
      (HasType(item.data) && item.data.fields["itemType"] in ctx.creatorTypes
       && UsedCreatorTypes(ctx.creatorTypes[item.data.fields["itemType"]], item.data.creators) != [])
    ensures r != VNone ==> r.VList? && forall v :: v in r.items ==>
      exists e :: e in ctx.creatorTypes[item.data.fields["itemType"]]
        && TypeUsed(e, item.data.creators) && v == EntryValue(e)
    ensures r != VNone ==> forall e ::
      (e in ctx.creatorTypes[item.data.fields["itemType"]] && TypeUsed(e, item.data.creators)) ==> EntryValue(e) in r.items
    ensures r != VNone ==>
      var u := UsedCreatorTypes(ctx.creatorTypes[item.data.fields["itemType"]], item.data.creators);
      |r.items| == |u| && forall i :: 0 <= i < |u| ==> r.items[i] == EntryValue(u[i])
  {
    var t := ItemType(item.data);
    if t.Some? && t.value != "" && t.value in ctx.creatorTypes then
      var kept := UsedCreatorTypes(ctx.creatorTypes[t.value], item.data.creators);
      if kept != [] then
        var vs := EntryValues(kept);
        VList(vs)
      else VNone
    else VNone
  }

  /**
   * Without a known item type there is no title (""), no type label and no
   * creator-type metadata.
   */
  lemma UnknownTypeHasNoMetadata(item: Item, ctx: LibraryContext)
    requires ItemType(item.data).None?
      || (ItemType(item.data).value !in ctx.itemFields
          && ItemType(item.data).value !in ctx.itemTypes
          && ItemType(item.data).value !in ctx.creatorTypes)
    ensures Title(item, ctx) == ""
    ensures TypeLabel(item, ctx) == VNone
    ensures FieldsOf(item, ctx) == VNone
    ensures CreatorTypesOf(item, ctx) == VNone
  {
  }

  /**
   * The search strings of one creator: the display name when set, then the
   * first and last names, which, when both are set, are combined in the
   * two orders "First Last" and "Last, First" instead.
   */
  function CreatorNames(c: Creator, env: Env): (r: seq<string>)
    ensures |r| <= 3
  {
    DisplayName(c, env) + GivenNames(FirstName(c, env), LastName(c, env))
  }

  /** The de-tagged, stripped display name, when the creator has a non-empty one. */
  function DisplayName(c: Creator, env: Env): (r: seq<string>)
    ensures |r| <= 1
  {
    if c.name.Some? && c.name.value != "" then [Strip(env.richtextStriptags(c.name.value))] else []
  }

  function FirstName(c: Creator, env: Env): string {
    Strip(env.richtextStriptags(c.firstName.GetOr("")))
  }

  function LastName(c: Creator, env: Env): string {
    Strip(env.richtextStriptags(c.lastName.GetOr("")))
  }

  /** The strings contributed by the first and last names. */
  function GivenNames(first: string, last: string): (r: seq<string>)
    ensures |r| <= 2
    ensures r == [] <==> first == "" && last == ""
  {
    if first != "" && last != "" then [first + " " + last, last + ", " + first]
    else if first != "" then [first]
    else if last != "" then [last]
    else []
  }

  /** The search strings of all creators, creator by creator. */
  function AllCreatorNames(cs: seq<Creator>, env: Env): (r: seq<string>)
    ensures cs == [] ==> r == []
  {
    if cs == [] then [] else CreatorNames(cs[0], env) + AllCreatorNames(cs[1..], env)
  }

  /** The creators' search strings joined by the record separator, or None if there is none. */
  function Creators(item: Item, env: Env): (r: Value)
    ensures r == VNone <==> AllCreatorNames(item.data.creators, env) == []
    ensures r != VNone ==> r.VStr?
  {
    var names := AllCreatorNames(item.data.creators, env);
    if names == [] then VNone else VStr(Join([RecordSeparator], names))
  }

  /**
   * Splitting the creators field at the record separator gives back every
   * search string, in order, provided none contains the separator.
   */
  lemma CreatorsSplit(item: Item, env: Env)
    requires AllCreatorNames(item.data.creators, env) != []
    requires AllCreatorNamesFree(item.data.creators, env)
    ensures Creators(item, env).VStr?
    ensures Split(RecordSeparator, Creators(item, env).s) == AllCreatorNames(item.data.creators, env)
  {
    SplitJoin(RecordSeparator, AllCreatorNames(item.data.creators, env));
  }

  /** No creator search string contains the record separator. */
  predicate AllCreatorNamesFree(cs: seq<Creator>, env: Env) {
    var names := AllCreatorNames(cs, env);
    forall i :: 0 <= i < |names| ==> RecordSeparator !in names[i]
  }

  /**
   * A creator with first and last name and no display name contributes
   * exactly the two combinations, not the names on their own.
   */
  lemma CreatorWithBothNames(c: Creator, env: Env)
    requires c.name.None? || c.name.value == ""
    requires FirstName(c, env) != "" && LastName(c, env) != ""
    ensures CreatorNames(c, env) == [FirstName(c, env) + " " + LastName(c, env), LastName(c, env) + ", " + FirstName(c, env)]
  {
    var f := FirstName(c, env);
    var l := LastName(c, env);
    assert DisplayName(c, env) == [];
    assert GivenNames(f, l) == [f + " " + l, l + ", " + f];
    assert CreatorNames(c, env) == [] + GivenNames(f, l);
  }

  /** A creator with a display name contributes it first, whatever its other names. */
  lemma CreatorDisplayNameFirst(c: Creator, env: Env)
    requires c.name.Some? && c.name.value != ""
    ensures |CreatorNames(c, env)| >= 1
    ensures CreatorNames(c, env)[0] == Strip(env.richtextStriptags(c.name.value))
  {
  }

  /** The stripped name of a known collection, "" for an unknown one. */
  function CollectionName(key: string, ctx: LibraryContext): string {
    if key in ctx.collections then Strip(ctx.collections[key].name.GetOr("")) else ""
  }

  /** The names of the given collections, "" standing for an unknown one. */
  function CollectionNamesOf(keys: seq<string>, ctx: LibraryContext): (r: seq<string>)
    ensures |r| == |keys|
    ensures forall i :: 0 <= i < |keys| ==> r[i] == CollectionName(keys[i], ctx)
  {
    seq(|keys|, i requires 0 <= i < |keys| => CollectionName(keys[i], ctx))
  }

  /** The non-empty strings of a list, in order. */
  function NonEmpty(xs: seq<string>): (r: seq<string>)
    ensures forall n :: n in r <==> n in xs && n != ""
  {
    if xs == [] then []
    else if xs[0] != "" then [xs[0]] + NonEmpty(xs[1..])
    else NonEmpty(xs[1..])
  }

  /** The non-blank names of the item's known collections, in item order. */
  function KnownCollectionNames(keys: seq<string>, ctx: LibraryContext): (r: seq<string>)
    ensures forall n :: n in r <==> n in CollectionNamesOf(keys, ctx) && n != ""
  {
    NonEmpty(CollectionNamesOf(keys, ctx))
  }

  /**
   * The distinct names of the item's known collections, sorted by their
   * normalized sort key and joined by the record separator; None if no
   * collection has a name.
   */
  function CollectionNames(item: Item, ctx: LibraryContext, env: Env): (r: Value)
    ensures r == VNone <==> KnownCollectionNames(item.data.collections, ctx) == []
    ensures r != VNone ==> r.VStr?
  {
    var names := Dedupe(KnownCollectionNames(item.data.collections, ctx));
    if names == [] then VNone
    else VStr(Join([RecordSeparator], SortBy(env.sortNormalize, names)))
  }

  /**
   * Splitting the collection-names field gives every name once, in sort-key
   * order, provided no name contains the record separator.
   */
  lemma CollectionNamesSplit(item: Item, ctx: LibraryContext, env: Env)
    requires KnownCollectionNames(item.data.collections, ctx) != []
    requires forall n :: n in KnownCollectionNames(item.data.collections, ctx) ==> RecordSeparator !in n
    ensures CollectionNames(item, ctx, env).VStr?
    ensures var parts := Split(RecordSeparator, CollectionNames(item, ctx, env).s);
      && SortedBy(env.sortNormalize, parts)
      && (forall n :: n in parts <==> n in KnownCollectionNames(item.data.collections, ctx))
      && (forall i, j :: 0 <= i < j < |parts| ==> parts[i] != parts[j])
  {
    var all := KnownCollectionNames(item.data.collections, ctx);
    var names := Dedupe(all);
    var sorted := SortBy(env.sortNormalize, names);
    SortByMembers(env.sortNormalize, names);
    assert |sorted| >= 1 by { assert all[0] in names; }
    assert forall i :: 0 <= i < |sorted| ==> RecordSeparator !in sorted[i] by {
      forall i | 0 <= i < |sorted| ensures RecordSeparator !in sorted[i] {
        assert sorted[i] in sorted;
      }
    }
    SplitJoin(RecordSeparator, sorted);
    SortByDistinct(env.sortNormalize, names);
  }

  /** `item["links"][linkKey]["href"]` when that link has type `linkType`, else None. */
  function LinkHref(item: Item, linkKey: string, linkType: string): (r: Value)
    ensures r != VNone <==>
      (linkKey in item.links && Get(item.links[linkKey], "type") == Some(linkType)
       && "href" in item.links[linkKey])
    ensures r != VNone ==> r == VStr(item.links[linkKey]["href"])
  {
    if linkKey in item.links && Get(item.links[linkKey], "type") == Some(linkType) then
      match Get(item.links[linkKey], "href")
      case Some(h) => VStr(h)
      case None => VNone
    else VNone
  }

  /** The item's zotero.org page: its `alternate` link of type `text/html`. */
  function WebItemUrl(item: Item): (r: Value)
    ensures r != VNone <==>
      && "alternate" in item.links
      && Get(item.links["alternate"], "type") == Some("text/html")
      && "href" in item.links["alternate"]
    ensures r != VNone ==> r == VStr(item.links["alternate"]["href"])
  {
    LinkHref(item, "alternate", "text/html")
  }

  /** The URI that selects the item in the Zotero desktop application. */
  function AppItemUrl(item: Item, ctx: LibraryContext): (r: string)
    ensures |r| == |AppScheme| + (if ctx.libraryType == "group" then 7 + |ctx.libraryId| else 7) + 7 + |item.key|
    ensures r[..|AppScheme|] == AppScheme
    ensures r[|r| - |item.key| - 7..] == "/items/" + item.key
    ensures ctx.libraryType == "group" <==> r[|AppScheme|..|AppScheme| + 7] == "groups/"
    ensures ctx.libraryType == "group" ==> r[|AppScheme| + 7..|AppScheme| + 7 + |ctx.libraryId|] == ctx.libraryId
    ensures ctx.libraryType != "group" ==> r[|AppScheme|..|r| - |item.key| - 7] == "library"
  {
    var place := LibraryPlace(ctx);
    ConcatSlices(AppScheme, place, "/items/" + item.key);
    AppScheme + place + "/items/" + item.key
  }

  /** The library part of an application URI: `groups/<id>` for a group, `library` otherwise. */
  function LibraryPlace(ctx: LibraryContext): (r: string)
    ensures |r| == if ctx.libraryType == "group" then 7 + |ctx.libraryId| else 7
    ensures ctx.libraryType == "group" <==> r[..7] == "groups/"
    ensures ctx.libraryType == "group" ==> r[7..] == ctx.libraryId
    ensures ctx.libraryType != "group" ==> r == "library"
  {
    if ctx.libraryType == "group" then
      var r := "groups/" + ctx.libraryId;
      assert r[..7] == "groups/";
      r
    else
      assert "library"[0] != "groups/"[0];
      "library"
  }

  /** The three parts of a concatenation can be sliced back out of it. */
  lemma ConcatSlices(p: string, q: string, t: string)
    ensures (p + q + t)[..|p|] == p
    ensures (p + q + t)[|p|..|p| + |q|] == q
    ensures (p + q + t)[|p| + |q|..] == t
  {
  }

  /** The scheme and action prefix of every application URI. */
  const AppScheme := "zotero://select/"

  /** Within one library, distinct item keys give distinct application URIs. */
  lemma AppItemUrlInjective(a: Item, b: Item, ctx: LibraryContext)
    requires AppItemUrl(a, ctx) == AppItemUrl(b, ctx)
    ensures a.key == b.key
  {
    var r := AppItemUrl(a, ctx);
    assert |a.key| == |b.key|;
    assert r[|r| - |a.key|..] == a.key;
    assert r[|r| - |b.key|..] == b.key;
  }

  /** Both forms of the application URI end with the item's key. */
  lemma AppItemUrlEndsWithKey(item: Item, ctx: LibraryContext)
    ensures |AppItemUrl(item, ctx)| > |item.key|
    ensures AppItemUrl(item, ctx)[|AppItemUrl(item, ctx)| - |item.key|..] == item.key
  {
  }

  /**
   * The item's relations under `relPredicate`: a list of URIs (a single URI
   * becomes a one-element list; an empty string stays an empty string),
   * an empty list when there is none. Never None.
   */
  function RelationsOf(item: Item, relPredicate: string): (r: Value)
    ensures r != VNone
    ensures relPredicate !in item.data.relations ==> r == VList([])
    ensures r.VList? ==> forall v :: v in r.items ==> v.VStr?
    ensures relPredicate in item.data.relations && item.data.relations[relPredicate].RelList? ==>
      r == VList(StrList(item.data.relations[relPredicate].uris))
    ensures relPredicate in item.data.relations && item.data.relations[relPredicate].RelStr? ==>
      var u := item.data.relations[relPredicate].uri;
      if u != "" then r == VList([VStr(u)]) else r == VStr("")
  {
    if relPredicate !in item.data.relations then VList([])
    else match item.data.relations[relPredicate]
      case RelStr(s) => if s != "" then VList([VStr(s)]) else VStr("")
      case RelList(xs) => VList(StrList(xs))
  }

  /** The item's type paired with its label, the type standing for an unknown label. */
  function TypeFacet(item: Item, ctx: LibraryContext): (r: Value)
    ensures r == VNone <==> !HasType(item.data)
    ensures r != VNone ==>
      && r.VTuple? && |r.items| == 2
      && r.items[0] == VStr(item.data.fields["itemType"])
      && (item.data.fields["itemType"] !in ctx.itemTypes ==> r.items[1] == r.items[0])
      && (item.data.fields["itemType"] in ctx.itemTypes ==>
            r.items[1] == VStr(ctx.itemTypes[item.data.fields["itemType"]]))
  {
    var t := ItemType(item.data);
    if t.Some? && t.value != "" then
      VTuple([VStr(t.value), VStr(Get(ctx.itemTypes, t.value).GetOr(t.value))])
    else VNone
  }

  /** Whether the data field `key` holds something other than whitespace. */
  function HasLinkFacet(item: Item, key: string): (r: Value)
    ensures r.VBool?
    ensures r.b <==>
      (exists i :: 0 <= i < |FieldOr(item.data, key, "")| && !IsSpace(FieldOr(item.data, key, "")[i]))
  {
    VBool(Strip(FieldOr(item.data, key, "")) != "")
  }
}

=== FILE: language.dfy ===
/**
 * Extraction of an item's languages as (code, label) pairs. The language
 * database, the translation catalogue, the separator pattern and the case
 * conversions are parameters of the extractor.
 */
module LanguageExtraction {
  import opened PyValue
  import opened PyStr
  import opened Zotero

  /** A language record of the database: its ISO 639-3 code and English name. */
  datatype Language = Language(alpha3: string, name: string)

  /**
   * The four case-insensitive lookups of the language database: by ISO 639-3
   * code, ISO 639-2 bibliographic code, ISO 639-1 code and English name.
   */
  datatype LanguageDb = LanguageDb(
    byAlpha3: string -> Option<Language>,
    byBibliographic: string -> Option<Language>,
    byAlpha2: string -> Option<Language>,
    byName: string -> Option<Language>)

  /**
   * The extractor's configuration: `splitValues` is the separator pattern's
   * `split`, `normalizeInvalid` labels values the database does not know
   * (`str.title` by default), `lower` is `str.lower`, and `translate` gives a
   * language name in the configured locale (the name itself when the locale
   * has no catalogue).
   */
  datatype LanguageConfig = LanguageConfig(
    splitValues: string -> seq<string>,
    normalize: bool,
    allowInvalid: bool,
    normalizeInvalid: string -> string,
    lower: string -> string,
    db: LanguageDb,
    translate: string -> string)

  /** The part of a value before its first `-` or `_` (a region suffix is ignored). */
  function BaseCode(value: string): (r: string)
    ensures r <= value
    ensures '-' !in r && '_' !in r
    ensures |r| < |value| ==> value[|r|] == '-' || value[|r|] == '_'
  {
    if value == [] || value[0] == '-' || value[0] == '_' then []
    else [value[0]] + BaseCode(value[1..])
  }

  /**
   * The database lookup: a 3-letter code is tried as ISO 639-3 and then as
   * bibliographic code, a 2-letter code as ISO 639-1, anything else as an
   * English name (the whole value, region suffix included).
   */
  function Lookup(db: LanguageDb, value: string): Option<Language> {
    var code := BaseCode(value);
    if |code| == 3 then
      match db.byAlpha3(code)
      case Some(m) => Some(m)
      case None => db.byBibliographic(code)
    else if |code| == 2 then db.byAlpha2(code)
    else db.byName(value)
  }

  /**
   * One separated value as a (code, label) pair: the ISO 639-3 code with
   * the translated name when the database knows it, else the lower-cased
   * value with its label when invalid values are allowed, else None.
   */
  function NormalizeLanguage(cfg: LanguageConfig, raw: string): (r: Value)
    ensures r == VNone || (r.VTuple? && |r.items| == 2)
    ensures Lookup(cfg.db, Strip(raw)).Some? ==>
      r == VTuple([VStr(Lookup(cfg.db, Strip(raw)).value.alpha3),
                   VStr(cfg.translate(Lookup(cfg.db, Strip(raw)).value.name))])
    ensures r == VNone <==> Lookup(cfg.db, Strip(raw)).None? && (Strip(raw) == "" || !cfg.allowInvalid)
    ensures Lookup(cfg.db, Strip(raw)).None? && Strip(raw) != "" && cfg.allowInvalid ==>
      r == VTuple([VStr(cfg.lower(Strip(raw))), VStr(cfg.normalizeInvalid(Strip(raw)))])
  {
    var value := Strip(raw);
    match Lookup(cfg.db, value)
    case Some(m) => VTuple([VStr(m.alpha3), VStr(cfg.translate(m.name))])
    case None =>
      if value != "" && cfg.allowInvalid then
        VTuple([VStr(cfg.lower(value)), VStr(cfg.normalizeInvalid(value))])
      else VNone
  }

  /** The separated values of the item's `language` field ("" when absent). */
  function RawValues(item: Item, cfg: LanguageConfig): seq<string> {
    cfg.splitValues(FieldOr(item.data, "language", ""))
  }

  /** The pairs before de-duplication: normalized, or each non-empty value stripped and paired with itself. */
  function Candidates(item: Item, cfg: LanguageConfig): (r: seq<Value>)
    ensures cfg.normalize ==> |r| == |RawValues(item, cfg)|
  {
    var values := RawValues(item, cfg);
    if cfg.normalize then seq(|values|, i requires 0 <= i < |values| => NormalizeLanguage(cfg, values[i]))
    else Verbatim(values)
  }

  /** A value kept verbatim: its stripped text as both code and label. */
  function VerbatimPair(s: string): (r: Value)
    ensures r.VTuple? && |r.items| == 2 && Truthy(r)
    ensures r.items[0] == r.items[1] == VStr(Strip(s))
  {
    VTuple([VStr(Strip(s)), VStr(Strip(s))])
  }

  /** What one value contributes when kept verbatim: its pair when it is non-empty, nothing otherwise. */
  function VerbatimHead(s: string): (r: seq<Value>)
    ensures r == [] || r == [VerbatimPair(s)]
    ensures r == [] <==> s == ""
  {
    if |s| == 0 then [] else [VerbatimPair(s)]
  }

  /** `[(v.strip(), v.strip()) for v in values if v]`. */
  function Verbatim(values: seq<string>): (r: seq<Value>)
    ensures forall v :: v in r ==> v.VTuple? && |v.items| == 2 && Truthy(v)
    ensures |r| <= |values|
  {
    if values == [] then [] else VerbatimHead(values[0]) + Verbatim(values[1..])
  }

  /** Every non-empty value gives its pair, and every pair comes from a non-empty value. */
  lemma {:induction false} VerbatimMembers(values: seq<string>)
    ensures forall s :: s in values && s != "" ==> VerbatimPair(s) in Verbatim(values)
    ensures forall v :: v in Verbatim(values) ==> exists s :: s in values && s != "" && v == VerbatimPair(s)
  {
    if values != [] {
      var rest := values[1..];
      VerbatimMembers(rest);
      assert Verbatim(values) == VerbatimHead(values[0]) + Verbatim(rest);
      forall s | s in values && s != ""
        ensures VerbatimPair(s) in Verbatim(values)
      {
        if s != values[0] {
          assert s in rest;
        }
      }
      forall v | v in Verbatim(values)
        ensures exists s :: s in values && s != "" && v == VerbatimPair(s)
      {
        if v in Verbatim(rest) {
          var s :| s in rest && s != "" && v == VerbatimPair(s);
          assert s in values;
        } else {
          assert v == VerbatimPair(values[0]) && values[0] in values;
        }
      }
    }
  }

  /** Keeping values verbatim goes value by value: the pairs of `a + b` are those of `a`, then those of `b`. */
  lemma {:induction false} VerbatimAppend(a: seq<string>, b: seq<string>)
    ensures Verbatim(a + b) == Verbatim(a) + Verbatim(b)
  {
    if a == [] {
      assert a + b == b;
    } else {
      assert (a + b)[0] == a[0];
      assert (a + b)[1..] == a[1..] + b;
      VerbatimStep(a + b);
      VerbatimStep(a);
      VerbatimAppend(a[1..], b);
      ConcatAssoc(VerbatimHead(a[0]), Verbatim(a[1..]), Verbatim(b));
    }
  }

  /** One step of `Verbatim`: what the first value contributes, then the pairs of the rest. */
  lemma VerbatimStep(values: seq<string>)
    requires values != []
    ensures Verbatim(values) == VerbatimHead(values[0]) + Verbatim(values[1..])
  {
  }

  lemma ConcatAssoc(x: seq<Value>, y: seq<Value>, z: seq<Value>)
    ensures x + (y + z) == (x + y) + z
  {
  }

  /**
   * The item's languages: every distinct truthy pair, in the order of first
   * occurrence; None when there is none.
   */
  function Languages(item: Item, cfg: LanguageConfig): (r: Value)
    ensures r == VNone <==> forall v :: v in Candidates(item, cfg) ==> !Truthy(v)
    ensures r != VNone ==>
      && r.VList?
      && (forall v :: v in r.items <==> v in Candidates(item, cfg) && Truthy(v))
      && (forall i, j :: 0 <= i < j < |r.items| ==> r.items[i] != r.items[j])
  {
    ListOrNone(DistinctTruthy(Candidates(item, cfg)))
  }

  /** `xs or None`. */
  function ListOrNone(xs: seq<Value>): (r: Value)
    ensures r == VNone <==> xs == []
    ensures r != VNone ==> r == VList(xs)
  {
    if xs == [] then VNone else VList(xs)
  }

  /** `[v for v in dict.fromkeys(vs).keys() if v]`. */
  function DistinctTruthy(vs: seq<Value>): (r: seq<Value>)
    ensures forall v :: v in r <==> v in vs && Truthy(v)
    ensures forall i, j :: 0 <= i < j < |r| ==> r[i] != r[j]
    ensures r == [] <==> forall v :: v in vs ==> !Truthy(v)
  {
    TruthyOnlyDistinct(Dedupe(vs));
    assert TruthyOnly(Dedupe(vs)) != [] ==> TruthyOnly(Dedupe(vs))[0] in TruthyOnly(Dedupe(vs));
    TruthyOnly(Dedupe(vs))
  }

  lemma {:induction false} TruthyOnlyDistinct(xs: seq<Value>)
    requires forall i, j :: 0 <= i < j < |xs| ==> xs[i] != xs[j]
    ensures forall i, j :: 0 <= i < j < |TruthyOnly(xs)| ==> TruthyOnly(xs)[i] != TruthyOnly(xs)[j]
  {
    if xs != [] {
      TruthyOnlyDistinct(xs[1..]);
      assert xs[0] !in xs[1..];
    }
  }

  /** `TruthyOnly` keeps the relative order of the values it keeps. */
  lemma TruthyOnlyOrder(xs: seq<Value>, i: nat, j: nat)
    requires i < j < |TruthyOnly(xs)|
    ensures exists a, b :: 0 <= a < b < |xs| && xs[a] == TruthyOnly(xs)[i] && xs[b] == TruthyOnly(xs)[j]
  {
    var a, b := TruthyOnlyPositions(xs, i, j);
  }

  /** Where the i-th and j-th kept values sit in the input. */
  lemma {:induction false} TruthyOnlyPositions(xs: seq<Value>, i: nat, j: nat) returns (a: nat, b: nat)
    requires i < j < |TruthyOnly(xs)|
    ensures a < b < |xs| && xs[a] == TruthyOnly(xs)[i] && xs[b] == TruthyOnly(xs)[j]
  {
    var r := TruthyOnly(xs);
    var rest := TruthyOnly(xs[1..]);
    if Truthy(xs[0]) {
      assert r == [xs[0]] + rest;
      if i == 0 {
        var k := TruthyOnlyPosition(xs[1..], j - 1);
        a, b := 0, k + 1;
      } else {
        var a', b' := TruthyOnlyPositions(xs[1..], i - 1, j - 1);
        a, b := a' + 1, b' + 1;
      }
    } else {
      assert r == rest;
      var a', b' := TruthyOnlyPositions(xs[1..], i, j);
      a, b := a' + 1, b' + 1;
    }
  }

  /** Where the k-th kept value sits in the input. */
  lemma {:induction false} TruthyOnlyPosition(xs: seq<Value>, k: nat) returns (a: nat)
    requires k < |TruthyOnly(xs)|
    ensures a < |xs| && xs[a] == TruthyOnly(xs)[k]
  {
    if Truthy(xs[0]) {
      assert TruthyOnly(xs) == [xs[0]] + TruthyOnly(xs[1..]);
      if k == 0 {
        a := 0;
      } else {
        var a' := TruthyOnlyPosition(xs[1..], k - 1);
        a := a' + 1;
      }
    } else {
      assert TruthyOnly(xs) == TruthyOnly(xs[1..]);
      var a' := TruthyOnlyPosition(xs[1..], k);
      a := a' + 1;
    }
  }

  /**
   * The languages come in the order in which they first occur among the
   * separated values.
   */
  lemma LanguagesInFirstOccurrenceOrder(item: Item, cfg: LanguageConfig, i: nat, j: nat)
    requires Languages(item, cfg).VList? && i < j < |Languages(item, cfg).items|
    ensures Languages(item, cfg).items[i] in Candidates(item, cfg)
    ensures Languages(item, cfg).items[j] in Candidates(item, cfg)
    ensures FirstIndex(Candidates(item, cfg), Languages(item, cfg).items[i])
          < FirstIndex(Candidates(item, cfg), Languages(item, cfg).items[j])
  {
    var cands := Candidates(item, cfg);
    var d := Dedupe(cands);
    var r := Languages(item, cfg).items;
    assert r == DistinctTruthy(cands) == TruthyOnly(d);
    TruthyOnlyOrder(d, i, j);
    var a, b :| 0 <= a < b < |d| && d[a] == r[i] && d[b] == r[j];
    DedupeKeepsFirstOccurrenceOrder(cands, a, b);
  }

  /**
   * An item without a language field has no languages, provided the
   * separator splits "" into [""] and, when normalizing, no language is
   * named "".
   */
  lemma NoLanguageField(item: Item, cfg: LanguageConfig)
    requires "language" !in item.data.fields
    requires cfg.splitValues("") == [""]
    requires cfg.normalize ==> cfg.db.byName("") == None
    ensures Languages(item, cfg) == VNone
  {
    NoTruthyCandidate(item, cfg);
  }

  /** Under the same conditions, no candidate pair is truthy. */
  lemma NoTruthyCandidate(item: Item, cfg: LanguageConfig)
    requires "language" !in item.data.fields
    requires cfg.splitValues("") == [""]
    requires cfg.normalize ==> cfg.db.byName("") == None
    ensures forall v :: v in Candidates(item, cfg) ==> !Truthy(v)
  {
    var values := RawValues(item, cfg);
    assert values == [""];
    if cfg.normalize {
      NormalizeEmpty(cfg);
      assert Candidates(item, cfg)[0] == NormalizeLanguage(cfg, "");
      assert Candidates(item, cfg) == [VNone];
    } else {
      VerbatimStep(values);
      assert Verbatim(values[1..]) == [];
      assert Candidates(item, cfg) == Verbatim(values) == [];
    }
  }

  /** The empty value normalizes to None when no language is named "". */
  lemma NormalizeEmpty(cfg: LanguageConfig)
    requires cfg.db.byName("") == None
    ensures NormalizeLanguage(cfg, "") == VNone
  {
    assert Strip("") == "";
    assert BaseCode("") == "";
  }

  /** A value whose base code is a known 2-letter code resolves to the 3-letter code. */
  lemma TwoLetterCodeResolves(cfg: LanguageConfig, raw: string, m: Language)
    requires |BaseCode(Strip(raw))| == 2 && cfg.db.byAlpha2(BaseCode(Strip(raw))) == Some(m)
    ensures NormalizeLanguage(cfg, raw) == VTuple([VStr(m.alpha3), VStr(cfg.translate(m.name))])
  {
  }

  /**
   * Two values that resolve to the same language yield a single pair, at
   * the position of the first of them.
   */
  lemma SameLanguageCollapses(item: Item, cfg: LanguageConfig, i: nat, j: nat)
    requires cfg.normalize && i < j < |RawValues(item, cfg)|
    requires NormalizeLanguage(cfg, RawValues(item, cfg)[i]) != VNone
    requires NormalizeLanguage(cfg, RawValues(item, cfg)[i]) == NormalizeLanguage(cfg, RawValues(item, cfg)[j])
    ensures Languages(item, cfg).VList?
    ensures multiset(Languages(item, cfg).items)[NormalizeLanguage(cfg, RawValues(item, cfg)[i])] == 1
  {
    var cands := Candidates(item, cfg);
    var v := NormalizeLanguage(cfg, RawValues(item, cfg)[i]);
    assert cands[i] == v && v in cands && Truthy(v);
    var r := Languages(item, cfg).items;
    assert v in r;
    DistinctOnce(r, v);
  }

  lemma {:induction false} DistinctOnce(xs: seq<Value>, x: Value)
    requires forall i, j :: 0 <= i < j < |xs| ==> xs[i] != xs[j]
    requires x in xs
    ensures multiset(xs)[x] == 1
  {
    assert xs == [xs[0]] + xs[1..];
    if xs[0] == x {
      assert x !in xs[1..];
    } else {
      DistinctOnce(xs[1..], x);
    }
  }
}

=== FILE: pyint.dfy ===
/**
 * Python's decimal formatting and parsing of integers (`str(n)`, the `0Nd`
 * format specification and `int(s)`) and its truncating integer cast.
 */
module PyInt {
  import opened PyValue

  predicate IsDigit(c: char) {
    '0' <= c <= '9'
  }

  predicate AllDigits(s: string) {
    forall i :: 0 <= i < |s| ==> IsDigit(s[i])
  }

  function DigitChar(d: nat): (c: char)
    requires d < 10
    ensures IsDigit(c) && c as int - '0' as int == d
  {
    ('0' as int + d) as char
  }

  function DigitValue(c: char): (d: nat)
    requires IsDigit(c)
    ensures d < 10
  {
    c as int - '0' as int
  }

  function Pow10(k: nat): (p: nat)
    ensures p >= 1
  {
    if k == 0 then 1 else 10 * Pow10(k - 1)
  }

  /** The shortest decimal numeral of `n`: no leading zero except for 0 itself. */
  function Digits(n: nat): (r: string)
    ensures |r| >= 1 && AllDigits(r)
    ensures |r| > 1 ==> r[0] != '0'
    decreases n
  {
    if n < 10 then [DigitChar(n)] else Digits(n / 10) + [DigitChar(n % 10)]
  }

  /** The number a string of decimal digits denotes. */
  function DecimalValue(s: string): nat
    requires AllDigits(s)
  {
    if s == [] then 0 else DecimalValue(s[..|s| - 1]) * 10 + DigitValue(s[|s| - 1])
  }

  /** `'0' * k`. */
  function Zeros(k: nat): (r: string)
    ensures |r| == k && AllDigits(r)
    ensures forall i :: 0 <= i < k ==> r[i] == '0'
  {
    seq(k, _ => '0')
  }

  /** `str(n)`: an optional minus sign and the shortest numeral of `|n|`. */
  function Str(n: int): (r: string)
    ensures r != []
  {
    if n < 0 then "-" + Digits(-n) else Digits(n)
  }

  /**
   * `format(n, "0{width}d")`: the numeral of `|n|` padded with zeros so that
   * sign and digits together take at least `width` characters.
   */
  function Padded(n: int, width: nat): (r: string)
    ensures |r| >= width && r != []
    ensures n >= 0 ==> AllDigits(r)
    ensures n < 0 ==> r[0] == '-' && AllDigits(r[1..])
  {
    var sign := if n < 0 then "-" else "";
    var ds := Digits(if n < 0 then -n else n);
    var fill := if |sign| + |ds| < width then width - |sign| - |ds| else 0;
    assert (sign + Zeros(fill) + ds)[|sign|..] == Zeros(fill) + ds;
    sign + Zeros(fill) + ds
  }

  /**
   * `int(s)` on strings made of an optional minus sign and decimal digits,
   * the only shape the formatting functions above produce; None for any
   * other string.
   */
  function ParseDecimal(s: string): (r: Option<int>)
    ensures r.Some? <==> (|s| >= 1 && AllDigits(s)) || (|s| >= 2 && s[0] == '-' && AllDigits(s[1..]))
  {
    if |s| >= 2 && s[0] == '-' && AllDigits(s[1..]) then Some(-(DecimalValue(s[1..]) as int))
    else if |s| >= 1 && AllDigits(s) then Some(DecimalValue(s))
    else None
  }

  /** `int(a / b)` for a positive divisor: the quotient truncated toward zero. */
  function TruncDiv(a: int, b: int): (q: int)
    requires b > 0
    ensures a >= 0 ==> 0 <= a - q * b < b
    ensures a < 0 ==> -b < a - q * b <= 0
  {
    if a >= 0 then a / b else -((-a) / b)
  }

  lemma {:induction false} DecimalConcat(a: string, b: string)
    requires AllDigits(a) && AllDigits(b)
    ensures AllDigits(a + b)
    ensures DecimalValue(a + b) == DecimalValue(a) * Pow10(|b|) + DecimalValue(b)
    decreases |b|
  {
    var s := a + b;
    AllDigitsConcat(a, b);
    if b == [] {
      assert s == a;
    } else {
      var b' := b[..|b| - 1];
      var d := DigitValue(b[|b| - 1]);
      assert s[..|s| - 1] == a + b';
      assert s[|s| - 1] == b[|b| - 1];
      DecimalConcat(a, b');
      assert DecimalValue(s) == DecimalValue(a + b') * 10 + d;
      assert DecimalValue(b) == DecimalValue(b') * 10 + d;
      assert Pow10(|b|) == Pow10(|b'|) * 10;
      ShiftDigit(DecimalValue(a), Pow10(|b'|), DecimalValue(b'), d);
    }
  }

  lemma AllDigitsConcat(a: string, b: string)
    requires AllDigits(a) && AllDigits(b)
    ensures AllDigits(a + b)
  {
    var s := a + b;
    forall i | 0 <= i < |s| ensures IsDigit(s[i]) {
      if i < |a| { assert s[i] == a[i]; } else { assert s[i] == b[i - |a|]; }
    }
  }

  /** Appending a digit multiplies the value of the digits before it by ten. */
  lemma ShiftDigit(x: int, p: int, y: int, d: int)
    ensures (x * p + y) * 10 + d == x * (p * 10) + (y * 10 + d)
  {
    assert (x * p + y) * 10 == x * p * 10 + y * 10;
    assert x * p * 10 == x * (p * 10);
  }

  lemma {:induction false} DecimalOfZeros(k: nat)
    ensures DecimalValue(Zeros(k)) == 0
  {
    if k > 0 {
      assert Zeros(k)[..k - 1] == Zeros(k - 1);
      DecimalOfZeros(k - 1);
    }
  }

  /** Leading zeros do not change the value of a numeral. */
  lemma LeadingZeros(k: nat, s: string)
    requires AllDigits(s)
    ensures AllDigits(Zeros(k) + s)
    ensures DecimalValue(Zeros(k) + s) == DecimalValue(s)
  {
    DecimalConcat(Zeros(k), s);
    DecimalOfZeros(k);
  }

  /** The numeral of `n` denotes `n`. */
  lemma {:induction false} DecimalOfDigits(n: nat)
    ensures DecimalValue(Digits(n)) == n
    decreases n
  {
    if n >= 10 {
      var d := Digits(n);
      assert d[..|d| - 1] == Digits(n / 10);
      DecimalOfDigits(n / 10);
    }
  }

  /** A number below `10^k` has at most `k` digits. */
  lemma {:induction false} DigitsLength(n: nat, k: nat)
    requires 1 <= k && n < Pow10(k)
    ensures |Digits(n)| <= k
    decreases k
  {
    if n >= 10 {
      assert k >= 2;
      DigitsLength(n / 10, k - 1);
    }
  }

  /** A non-negative number padded to at least its own width denotes itself. */
  lemma PaddedValue(n: nat, width: nat)
    ensures AllDigits(Padded(n, width))
    ensures DecimalValue(Padded(n, width)) == DecimalValue(Digits(n)) == n
  {
    var ds := Digits(n);
    var fill := if |ds| < width then width - |ds| else 0;
    assert Padded(n, width) == Zeros(fill) + ds;
    LeadingZeros(fill, ds);
    DecimalOfDigits(n);
  }

  /** A negative number padded to any width is a minus sign followed by a numeral of its magnitude. */
  lemma PaddedNegativeValue(n: int, width: nat)
    requires n < 0
    ensures AllDigits(Padded(n, width)[1..])
    ensures DecimalValue(Padded(n, width)[1..]) == -n
  {
    var ds := Digits(-n);
    var fill := if 1 + |ds| < width then width - 1 - |ds| else 0;
    assert Padded(n, width)[1..] == Zeros(fill) + ds;
    LeadingZeros(fill, ds);
    DecimalOfDigits(-n);
  }

  /** A number below `10^width` fills exactly `width` characters. */
  lemma PaddedWidth(n: nat, width: nat)
    requires 1 <= width && n < Pow10(width)
    ensures |Padded(n, width)| == width
  {
    DigitsLength(n, width);
  }

  /** `int(str(n)) == n`. */
  lemma ParseStr(n: int)
    ensures ParseDecimal(Str(n)) == Some(n)
  {
    if n < 0 {
      ParseNegative(-n);
    } else {
      ParseDigits(n);
    }
  }

  /** The digits of a natural number parse back to it. */
  lemma ParseDigits(n: nat)
    ensures ParseDecimal(Digits(n)) == Some(n)
  {
    var s := Digits(n);
    assert IsDigit(s[0]);
    DecimalOfDigits(n);
    assert ParseDecimal(s) == Some(DecimalValue(s));
  }

  /** A minus sign before the digits of a positive number parses to its negation. */
  lemma ParseNegative(m: nat)
    requires m > 0
    ensures ParseDecimal(Str(-(m as int))) == Some(-(m as int))
  {
    var s := Str(-(m as int));
    assert s[0] == '-' && s[1..] == Digits(m);
    DecimalOfDigits(m);
    assert ParseDecimal(s) == Some(-(DecimalValue(s[1..]) as int));
  }
}

=== FILE: pystr.dfy ===
/** The string operations of Python's `str` that the extractors rely on. */
module PyStr {

  /** The control character that joins several values into one search field. */
  const RecordSeparator: char := '\U{1E}'

  /**
   * `c.isspace()`: the characters Python treats as whitespace. The
   * information separators 0x1C..0x1F, the record separator among them,
   * are whitespace to Python.
   */
  predicate IsSpace(c: char) {
    var n := c as int;
    || 0x09 <= n <= 0x0D
    || 0x1C <= n <= 0x20
    || n == 0x85 || n == 0xA0 || n == 0x1680
    || 0x2000 <= n <= 0x200A
    || n == 0x2028 || n == 0x2029 || n == 0x202F || n == 0x205F || n == 0x3000
  }

  /** `s.lstrip()`: drops the leading whitespace, and only that. */
  function LStrip(s: string): (r: string)
    ensures |r| <= |s| && r == s[|s| - |r|..]
    ensures forall k :: 0 <= k < |s| - |r| ==> IsSpace(s[k])
    ensures r == [] || !IsSpace(r[0])
  {
    if s == [] || !IsSpace(s[0]) then s else LStrip(s[1..])
  }

  /** `s.rstrip()`: drops the trailing whitespace, and only that. */
  function RStrip(s: string): (r: string)
    ensures |r| <= |s| && r == s[..|r|]
    ensures forall k :: |r| <= k < |s| ==> IsSpace(s[k])
    ensures r == [] || !IsSpace(r[|r| - 1])
  {
    if s == [] || !IsSpace(s[|s| - 1]) then s else RStrip(s[..|s| - 1])
  }

  /** `s.strip()`. */
  function Strip(s: string): (r: string)
    ensures |r| == 0 || (!IsSpace(r[0]) && !IsSpace(r[|r| - 1]))
    ensures |r| == 0 <==> forall k :: 0 <= k < |s| ==> IsSpace(s[k])
    ensures |r| <= |s|
  {
    var t := RStrip(s);
    var r := LStrip(t);
    StripBoundaries(s, t, r);
    r
  }

  lemma {:induction false} StripBoundaries(s: string, t: string, r: string)
    requires t == RStrip(s) && r == LStrip(t)
    ensures r == [] || (!IsSpace(r[0]) && !IsSpace(r[|r| - 1]))
    ensures r == [] <==> forall k :: 0 <= k < |s| ==> IsSpace(s[k])
  {
    assert |t| <= |s| && t == s[..|t|];
    assert forall k :: |t| <= k < |s| ==> IsSpace(s[k]);
    assert t == [] || !IsSpace(t[|t| - 1]);
    assert |r| <= |t| && r == t[|t| - |r|..];
    assert forall k :: 0 <= k < |t| - |r| ==> IsSpace(t[k]);
    assert r == [] || !IsSpace(r[0]);
    if r == [] {
      AllSpace(s, t);
    } else {
      var k0 := |t| - |r|;
      assert r[|r| - 1] == t[|t| - 1];
      assert s[k0] == t[k0] == r[0];
    }
  }

  lemma AllSpace(s: string, t: string)
    requires |t| <= |s| && t == s[..|t|]
    requires forall k :: |t| <= k < |s| ==> IsSpace(s[k])
    requires forall k :: 0 <= k < |t| ==> IsSpace(t[k])
    ensures forall k :: 0 <= k < |s| ==> IsSpace(s[k])
  {
    forall k | 0 <= k < |s|
      ensures IsSpace(s[k])
    {
      if k < |t| {
        assert s[k] == t[k];
      }
    }
  }

  /** A string with no whitespace at either end is left as it is by `strip()`. */
  lemma {:induction false} StripTrimmed(s: string)
    requires s == [] || (!IsSpace(s[0]) && !IsSpace(s[|s| - 1]))
    ensures Strip(s) == s
  {
    assert RStrip(s) == s;
    assert LStrip(s) == s;
  }

  /** `strip()` is idempotent. */
  lemma StripIdempotent(s: string)
    ensures Strip(Strip(s)) == Strip(s)
  {
    StripTrimmed(Strip(s));
  }

  /** `sep.join(parts)`. */
  function Join(sep: string, parts: seq<string>): (r: string)
    ensures parts == [] ==> r == []
    ensures |parts| == 1 ==> r == parts[0]
  {
    if parts == [] then []
    else if |parts| == 1 then parts[0]
    else parts[0] + sep + Join(sep, parts[1..])
  }

  /** Index of the first occurrence of `c` in `s`. */
  function IndexOf(c: char, s: string): (i: nat)
    requires c in s
    ensures i < |s| && s[i] == c
    ensures c !in s[..i]
  {
    if s[0] == c then 0 else 1 + IndexOf(c, s[1..])
  }

  /** `s.split(c)` for a one-character separator. */
  function Split(c: char, s: string): (r: seq<string>)
    ensures |r| >= 1
    ensures forall i :: 0 <= i < |r| ==> c !in r[i]
    decreases |s|
  {
    if c !in s then [s]
    else
      var i := IndexOf(c, s);
      [s[..i]] + Split(c, s[i + 1..])
  }

  /** Splitting the join of separator-free parts gives the parts back. */
  lemma {:induction false} SplitJoin(c: char, parts: seq<string>)
    requires |parts| >= 1
    requires forall i :: 0 <= i < |parts| ==> c !in parts[i]
    ensures Split(c, Join([c], parts)) == parts
    decreases |parts|
  {
    if |parts| > 1 {
      var rest := Join([c], parts[1..]);
      var s := parts[0] + [c] + rest;
      assert s == Join([c], parts);
      IndexOfAfterPrefix(c, parts[0], rest);
      assert s[..|parts[0]|] == parts[0];
      assert s[|parts[0]| + 1..] == rest;
      SplitJoin(c, parts[1..]);
      assert parts == [parts[0]] + parts[1..];
    }
  }

  /** Joining the pieces of a split gives the string back. */
  lemma {:induction false} JoinSplit(c: char, s: string)
    ensures Join([c], Split(c, s)) == s
    decreases |s|
  {
    if c in s {
      var i := IndexOf(c, s);
      var parts := [s[..i]] + Split(c, s[i + 1..]);
      assert Split(c, s) == parts;
      assert |parts| >= 2 && parts[0] == s[..i] && parts[1..] == Split(c, s[i + 1..]);
      calc {
        Join([c], parts);
        parts[0] + [c] + Join([c], parts[1..]);
        { JoinSplit(c, s[i + 1..]); }
        s[..i] + [c] + s[i + 1..];
        { assert s == s[..i] + [c] + s[i + 1..]; }
        s;
      }
    }
  }

  lemma IndexOfAfterPrefix(c: char, p: string, rest: string)
    requires c !in p
    ensures c in p + [c] + rest
    ensures IndexOf(c, p + [c] + rest) == |p|
  {
    var s := p + [c] + rest;
    assert s[|p|] == c;
    if p != [] {
      assert s[1..] == p[1..] + [c] + rest;
      IndexOfAfterPrefix(c, p[1..], rest);
    }
  }
}

=== FILE: pyvalue.dfy ===
/** Python values as the extractors produce and consume them. */
module PyValue {

  /** The conventional Some/None datatype, used for optional record members. */
  datatype Option<+T> = None | Some(value: T) {
    /** `d.get(k, default)` once the lookup has produced an Option. */
    function GetOr(default: T): T {
      match this
      case Some(v) => v
      case None => default
    }
  }

  /** Looks up a key of a map, as Python's `dict.get(k)` does. */
  function Get<K, V>(m: map<K, V>, k: K): (r: Option<V>)
    ensures r.Some? <==> k in m
    ensures r.Some? ==> r.value == m[k]
  {
    if k in m then Some(m[k]) else None
  }

  /**
   * An extracted value. `VNone` is Python's `None`, which every extractor
   * returns to mean "no value found".
   */
  datatype Value =
    | VNone
    | VBool(b: bool)
    | VInt(i: int)
    | VStr(s: string)
    | VList(items: seq<Value>)
    | VTuple(items: seq<Value>)
    | VSet(elems: set<Value>)
    | VDict(entries: map<string, Value>)

  /** Python truthiness (`bool(v)`). */
  predicate Truthy(v: Value) {
    match v
    case VNone => false
    case VBool(b) => b
    case VInt(i) => i != 0
    case VStr(s) => s != []
    case VList(xs) => xs != []
    case VTuple(xs) => xs != []
    case VSet(s) => s != {}
    case VDict(m) => m != map[]
  }

  /** `isinstance(v, Iterable) and not isinstance(v, str)`. */
  predicate IsCollection(v: Value) {
    v.VList? || v.VTuple? || v.VSet? || v.VDict?
  }

  /**
   * The order in which Python iterates over a set. It is left unspecified by
   * the language, so the model receives it as a parameter.
   */
  type SetOrder = set<Value> -> seq<Value>

  /** `xs` lists every element of `s` exactly once. */
  ghost predicate Enumerates(xs: seq<Value>, s: set<Value>) {
    && (forall i, j :: 0 <= i < j < |xs| ==> xs[i] != xs[j])
    && (forall x :: x in xs <==> x in s)
  }

  /** An iteration order that is faithful to every set. */
  ghost predicate FaithfulOrder(order: SetOrder) {
    forall s :: Enumerates(order(s), s)
  }

  /** A string as a sequence of one-character strings, as iterating over it yields. */
  function Chars(s: string): (r: seq<Value>)
    ensures |r| == |s|
    ensures forall i :: 0 <= i < |s| ==> r[i] == VStr([s[i]])
  {
    seq(|s|, i requires 0 <= i < |s| => VStr([s[i]]))
  }

  /**
   * What `for x in v` yields, or None where Python raises TypeError because
   * `v` is not iterable. Iterating a dict yields its keys.
   */
  function Elements(v: Value, order: SetOrder): (r: Option<seq<Value>>)
    ensures r.None? <==> (v.VNone? || v.VBool? || v.VInt?)
    ensures (v.VList? || v.VTuple?) ==> r == Some(v.items)
    ensures v.VStr? ==> r == Some(Chars(v.s))
  {
    match v
    case VStr(s) => Some(Chars(s))
    case VList(xs) => Some(xs)
    case VTuple(xs) => Some(xs)
    case VSet(s) => Some(order(s))
    case VDict(m) => Some(order(set k | k in m.Keys :: VStr(k)))
    case _ => None
  }

  /** A list of strings as a Python list of `str` values. */
  function StrList(xs: seq<string>): (r: seq<Value>)
    ensures |r| == |xs|
    ensures forall i :: 0 <= i < |xs| ==> r[i] == VStr(xs[i])
  {
    seq(|xs|, i requires 0 <= i < |xs| => VStr(xs[i]))
  }

  /**
   * Order-preserving de-duplication, as `dict.fromkeys(xs).keys()`: the
   * first occurrence of every value is kept.
   */
  function Dedupe<T(==, !new)>(xs: seq<T>): (r: seq<T>)
    ensures forall x :: x in r <==> x in xs
    ensures forall i, j :: 0 <= i < j < |r| ==> r[i] != r[j]
    ensures |r| <= |xs|
  {
    if xs == [] then []
    else
      var prefix := Dedupe(xs[..|xs| - 1]);
      assert xs == xs[..|xs| - 1] + [xs[|xs| - 1]];
      if xs[|xs| - 1] in prefix then prefix else prefix + [xs[|xs| - 1]]
  }

  /** Index of the first occurrence of `x` in `xs`. */
  function FirstIndex<T(==)>(xs: seq<T>, x: T): (i: nat)
    requires x in xs
    ensures i < |xs| && xs[i] == x
    ensures forall k :: 0 <= k < i ==> xs[k] != x
  {
    if xs[0] == x then 0 else 1 + FirstIndex(xs[1..], x)
  }

  /**
   * `Dedupe` keeps values in the order of their first occurrence: of two
   * kept values, the one that occurs first in the input comes first.
   */
  lemma {:induction false} DedupeKeepsFirstOccurrenceOrder<T(!new)>(xs: seq<T>, i: nat, j: nat)
    requires i < j < |Dedupe(xs)|
    ensures FirstIndex(xs, Dedupe(xs)[i]) < FirstIndex(xs, Dedupe(xs)[j])
    decreases |xs|
  {
    var last := xs[|xs| - 1];
    var init := xs[..|xs| - 1];
    assert xs == init + [last];
    var p := Dedupe(init);
    var r := Dedupe(xs);
    FirstIndexOfPrefix(init, last, r[i]);
    if j < |p| {
      assert r[i] == p[i] && r[j] == p[j];
      FirstIndexOfPrefix(init, last, r[j]);
      DedupeKeepsFirstOccurrenceOrder(init, i, j);
    } else {
      assert r[j] == last && last !in init;
      assert r[i] == p[i] && p[i] in init;
      assert FirstIndex(xs, r[i]) < |init|;
      FirstIndexAfterPrefix(init, last);
    }
  }

  lemma FirstIndexOfPrefix<T>(init: seq<T>, last: T, x: T)
    requires x in init
    ensures FirstIndex(init + [last], x) == FirstIndex(init, x)
  {
    var xs := init + [last];
    if init[0] != x {
      assert xs[1..] == init[1..] + [last];
      FirstIndexOfPrefix(init[1..], last, x);
    }
  }

  lemma FirstIndexAfterPrefix<T>(init: seq<T>, last: T)
    requires last !in init
    ensures FirstIndex(init + [last], last) == |init|
  {
    var xs := init + [last];
    if init != [] {
      assert xs[1..] == init[1..] + [last];
      FirstIndexAfterPrefix(init[1..], last);
    }
  }

  /** Keeps the truthy values of a list, in order (`[v for v in vs if v]`). */
  function TruthyOnly(vs: seq<Value>): (r: seq<Value>)
    ensures forall v :: v in r <==> v in vs && Truthy(v)
    ensures |r| <= |vs|
  {
    if vs == [] then []
    else if Truthy(vs[0]) then [vs[0]] + TruthyOnly(vs[1..])
    else TruthyOnly(vs[1..])
  }
}

=== FILE: sorting.dfy ===
/**
 * `sorted(xs, key=k)` over strings: a stable sort by a key, where keys are
 * compared the way Python compares strings, code point by code point.
 */
module Sorting {

  /** Python's `a < b` on strings: lexicographic by code point. */
  predicate Less(a: string, b: string) {
    if a == [] then b != []
    else if b == [] then false
    else if a[0] < b[0] then true
    else if a[0] == b[0] then Less(a[1..], b[1..])
    else false
  }

  predicate LessEq(a: string, b: string) {
    Less(a, b) || a == b
  }

  /** Any two strings are ordered one way or the other. */
  lemma {:induction false} LessTotal(a: string, b: string)
    ensures !Less(a, b) ==> LessEq(b, a)
  {
    if a != [] && b != [] && a[0] == b[0] {
      LessTotal(a[1..], b[1..]);
      if a[1..] == b[1..] {
        assert a == [a[0]] + a[1..] && b == [b[0]] + b[1..];
      }
    }
  }

  /** Neighbouring elements are in key order. */
  ghost predicate SortedBy(key: string -> string, xs: seq<string>) {
    forall i :: 0 <= i < |xs| - 1 ==> LessEq(key(xs[i]), key(xs[i + 1]))
  }

  /** Inserts `x` after every element whose key is not greater than its own. */
  function Insert(key: string -> string, x: string, xs: seq<string>): (r: seq<string>)
    requires SortedBy(key, xs)
    ensures SortedBy(key, r)
    ensures multiset(r) == multiset(xs) + multiset{x}
    ensures r != [] && (r[0] == x || (xs != [] && r[0] == xs[0]))
  {
    if xs == [] then [x]
    else if Less(key(x), key(xs[0])) then [x] + xs
    else
      LessTotal(key(x), key(xs[0]));
      var rest := Insert(key, x, xs[1..]);
      assert xs == [xs[0]] + xs[1..];
      [xs[0]] + rest
  }

  /** `sorted(xs, key=key)`: stable insertion sort. */
  function SortBy(key: string -> string, xs: seq<string>): (r: seq<string>)
    ensures SortedBy(key, r)
    ensures multiset(r) == multiset(xs)
  {
    if xs == [] then []
    else
      assert xs == xs[..|xs| - 1] + [xs[|xs| - 1]];
      Insert(key, xs[|xs| - 1], SortBy(key, xs[..|xs| - 1]))
  }

  /** Sorting keeps exactly the elements it was given. */
  lemma SortByMembers(key: string -> string, xs: seq<string>)
    ensures forall x :: x in SortBy(key, xs) <==> x in xs
    ensures |SortBy(key, xs)| == |xs|
  {
    var r := SortBy(key, xs);
    assert |r| == |multiset(r)| == |multiset(xs)| == |xs|;
    forall x
      ensures x in r <==> x in xs
    {
      assert x in r <==> x in multiset(r);
      assert x in xs <==> x in multiset(xs);
    }
  }

  /** Sorting a list without repetitions gives a list without repetitions. */
  lemma SortByDistinct(key: string -> string, xs: seq<string>)
    requires forall i, j :: 0 <= i < j < |xs| ==> xs[i] != xs[j]
    ensures forall i, j :: 0 <= i < j < |SortBy(key, xs)| ==> SortBy(key, xs)[i] != SortBy(key, xs)[j]
  {
    DistinctByMultiset(xs, SortBy(key, xs));
  }

  /** A permutation of a list without repetitions has none either. */
  lemma DistinctByMultiset(a: seq<string>, b: seq<string>)
    requires forall i, j :: 0 <= i < j < |a| ==> a[i] != a[j]
    requires multiset(a) == multiset(b)
    ensures forall i, j :: 0 <= i < j < |b| ==> b[i] != b[j]
  {
    forall i, j | 0 <= i < j < |b|
      ensures b[i] != b[j]
    {
      if b[i] == b[j] {
        var x := b[i];
        assert b == b[..i] + [b[i]] + b[i + 1..j] + [b[j]] + b[j + 1..];
        assert multiset(b)[x] >= 2;
        MultiplicityOfDistinct(a, x);
      }
    }
  }

  /** A value occurs at most once in a list without repetitions. */
  lemma {:induction false} MultiplicityOfDistinct(xs: seq<string>, x: string)
    requires forall i, j :: 0 <= i < j < |xs| ==> xs[i] != xs[j]
    ensures multiset(xs)[x] <= 1
  {
    if xs != [] {
      assert xs == [xs[0]] + xs[1..];
      MultiplicityOfDistinct(xs[1..], x);
      if xs[0] == x {
        assert x !in xs[1..];
      }
    }
  }
}

=== FILE: sortkeys.dfy ===
/**
 * Sort-key extractors: de-tagged, normalized text of a data field, of the
 * title and of the primary creators. `sort_normalize` and
 * `Markup(..).striptags()` are parameters.
 */
module SortKeyExtractors {
  import opened PyValue
  import opened PyStr
  import opened Zotero
  import ItemExtractors

  /** `_prepare_sort_text`: tags stripped, then normalized for sorting. */
  function PrepareSortText(text: string, env: Env): string {
    env.sortNormalize(env.striptags(text))
  }

  /**
   * `SortItemDataExtractor` as written: the field's value is handed to
   * `Markup` even when it is None, and `Markup(None)` is the text "None".
   */
  function SortItemDataAsWritten(item: Item, key: string, env: Env): (r: string)
    ensures key !in item.data.fields ==> r == PrepareSortText("None", env)
    ensures key in item.data.fields ==> r == PrepareSortText(item.data.fields[key], env)
  {
    PrepareSortText(FieldOr(item.data, key, "None"), env)
  }

  /**
   * As written, an item without the field gets the same sort key as one
   * whose field holds the word "None".
   */
  lemma SortItemDataAsWrittenMissingIsNone(item: Item, key: string, env: Env)
    requires key !in item.data.fields
    ensures SortItemDataAsWritten(item, key, env)
         == SortItemDataAsWritten(item.(data := item.data.(fields := item.data.fields[key := "None"])), key, env)
  {
  }

  /**
   * `SortItemDataExtractor` as intended: a missing field sorts like an empty
   * one, as a missing title does.
   */
  function SortItemData(item: Item, key: string, env: Env): (r: string)
    ensures key !in item.data.fields ==> r == PrepareSortText("", env)
    ensures key in item.data.fields ==> r == PrepareSortText(item.data.fields[key], env)
  {
    PrepareSortText(FieldOr(item.data, key, ""), env)
  }

  /** Removing the field gives the key of an empty field, whatever the field held. */
  lemma SortItemDataMissingIsEmpty(item: Item, key: string, env: Env)
    requires key !in item.data.fields
    ensures SortItemData(item, key, env)
         == SortItemData(item.(data := item.data.(fields := item.data.fields[key := ""])), key, env)
  {
  }

  /** `SortTitleExtractor`: the title's sort text; notes sort as the empty text. */
  function SortTitle(item: Item, ctx: LibraryContext, env: Env): (r: string)
    ensures ItemType(item.data) in {Some("note"), Some("annotation")} ==> r == PrepareSortText("", env)
  {
    PrepareSortText(ItemExtractors.Title(item, ctx), env)
  }

  /** The non-empty strings of `xs`, in order. */
  function NonEmptyParts(xs: seq<string>): (r: seq<string>)
    ensures forall s :: s in r <==> s in xs && s != ""
    ensures |r| <= |xs|
  {
    if xs == [] then []
    else if xs[0] != "" then [xs[0]] + NonEmptyParts(xs[1..])
    else NonEmptyParts(xs[1..])
  }

  /** The sort texts of a creator's last, first and display names, in that order. */
  function CreatorSortParts(c: Creator, env: Env): (r: seq<string>)
    ensures |r| == 3
  {
    [PrepareSortText(c.lastName.GetOr(""), env),
     PrepareSortText(c.firstName.GetOr(""), env),
     PrepareSortText(c.name.GetOr(""), env)]
  }

  /** One creator's key: its non-empty name parts joined by " zzz ". */
  function CreatorSortKey(c: Creator, env: Env): (r: string)
    ensures NonEmptyParts(CreatorSortParts(c, env)) == [] ==> r == ""
  {
    Join(" zzz ", NonEmptyParts(CreatorSortParts(c, env)))
  }

  /** `creator.get("creatorType", "") == creator_type.get("creatorType")`. */
  predicate OfType(c: Creator, entry: SchemaEntry) {
    Get(entry, "creatorType") == Some(c.creatorType.GetOr(""))
  }

  /** The creators of one type, in item order. */
  function CreatorsOfType(cs: seq<Creator>, entry: SchemaEntry): (r: seq<Creator>)
    ensures forall c :: c in r <==> c in cs && OfType(c, entry)
    ensures |r| <= |cs|
  {
    if cs == [] then []
    else if OfType(cs[0], entry) then [cs[0]] + CreatorsOfType(cs[1..], entry)
    else CreatorsOfType(cs[1..], entry)
  }

  /**
   * The creators the sort key is built from: those of the first type, in
   * schema order, that has at least one; none when no type has any.
   */
  function SelectedCreators(types: seq<SchemaEntry>, cs: seq<Creator>): (r: seq<Creator>)
    ensures r == [] <==> forall i :: 0 <= i < |types| ==> CreatorsOfType(cs, types[i]) == []
    ensures r != [] ==> exists i ::
      && 0 <= i < |types|
      && r == CreatorsOfType(cs, types[i])
      && forall j :: 0 <= j < i ==> CreatorsOfType(cs, types[j]) == []
  {
    if types == [] then []
    else
      var first := CreatorsOfType(cs, types[0]);
      if first != [] then first
      else
        var rest := SelectedCreators(types[1..], cs);
        assert forall i :: 0 < i < |types| ==> types[i] == types[1..][i - 1];
        if rest == [] then rest
        else
          var k :| 0 <= k < |types[1..]| && rest == CreatorsOfType(cs, types[1..][k])
            && forall j :: 0 <= j < k ==> CreatorsOfType(cs, types[1..][j]) == [];
          assert rest == CreatorsOfType(cs, types[k + 1]);
          rest
  }

  /** The per-creator keys of `cs`, in order. */
  function CreatorKeys(cs: seq<Creator>, env: Env): (r: seq<string>)
    ensures |r| == |cs|
    ensures forall i :: 0 <= i < |cs| ==> r[i] == CreatorSortKey(cs[i], env)
  {
    seq(|cs|, i requires 0 <= i < |cs| => CreatorSortKey(cs[i], env))
  }

  /**
   * `SortCreatorExtractor`: the keys of the selected creators joined by
   * " zzzzzz "; "" when no creator type of the item has a creator.
   */
  function SortCreator(item: Item, ctx: LibraryContext, env: Env): (r: string)
    ensures (forall e :: e in ctx.creatorTypesFor(item.data) ==> CreatorsOfType(item.data.creators, e) == []) ==> r == ""
  {
    var types := ctx.creatorTypesFor(item.data);
    assert (forall e :: e in types ==> CreatorsOfType(item.data.creators, e) == [])
      ==> forall i :: 0 <= i < |types| ==> CreatorsOfType(item.data.creators, types[i]) == [];
    Join(" zzzzzz ", CreatorKeys(SelectedCreators(types, item.data.creators), env))
  }

  /**
   * When the primary creator type has a creator, only the primary creators
   * count: the key is that of an item listing nothing but them.
   */
  lemma SortCreatorPrimaryOnly(item: Item, ctx: LibraryContext, env: Env)
    requires |ctx.creatorTypesFor(item.data)| >= 1
    requires CreatorsOfType(item.data.creators, ctx.creatorTypesFor(item.data)[0]) != []
    ensures SortCreator(item, ctx, env)
         == Join(" zzzzzz ", CreatorKeys(CreatorsOfType(item.data.creators, ctx.creatorTypesFor(item.data)[0]), env))
  {
  }

  /**
   * A creator with a last and a first name and no display name is keyed as
   * "last zzz first", each part normalized, when both normalize to non-empty text.
   */
  lemma CreatorSortKeyLastFirst(c: Creator, env: Env)
    requires c.name.None?
    requires PrepareSortText(c.lastName.GetOr(""), env) != "" && PrepareSortText(c.firstName.GetOr(""), env) != ""
    requires PrepareSortText("", env) == ""
    ensures CreatorSortKey(c, env)
         == PrepareSortText(c.lastName.GetOr(""), env) + " zzz " + PrepareSortText(c.firstName.GetOr(""), env)
  {
    var l, f := PrepareSortText(c.lastName.GetOr(""), env), PrepareSortText(c.firstName.GetOr(""), env);
    assert CreatorSortParts(c, env) == [l, f, ""];
    assert NonEmptyParts([l, f, ""]) == [l] + NonEmptyParts([f, ""]);
    assert NonEmptyParts([f, ""]) == [f] + NonEmptyParts([""]);
    assert NonEmptyParts([""]) == [];
  }
}

=== FILE: tags.dfy ===
/** Tag extraction with optional include and exclude patterns. */
module TagExtractors {
  import opened PyValue
  import opened PyStr
  import opened Sorting
  import opened Zotero

  /**
   * The include and exclude patterns. A pattern is `re.match`, which
   * matches at the start of the tag; an empty pattern is None and lets every
   * tag through.
   */
  datatype TagFilter = TagFilter(includeRe: Option<string -> bool>, excludeRe: Option<string -> bool>)

  /** A stripped tag is kept when it is non-empty, matches `include` and does not match `exclude`. */
  predicate Keeps(f: TagFilter, tag: string) {
    && tag != ""
    && (f.includeRe.None? || f.includeRe.value(tag))
    && (f.excludeRe.None? || !f.excludeRe.value(tag))
  }

  /** The stripped text of every tag entry, in item order. */
  function TagTexts(tags: seq<Tag>): (r: seq<string>)
    ensures |r| == |tags|
    ensures forall i :: 0 <= i < |tags| ==> r[i] == Strip(tags[i].tag.GetOr(""))
  {
    seq(|tags|, i requires 0 <= i < |tags| => Strip(tags[i].tag.GetOr("")))
  }

  /** The kept tags, in item order, repetitions included. */
  function KeptTags(f: TagFilter, tags: seq<string>): (r: seq<string>)
    ensures forall t :: t in r <==> t in tags && Keeps(f, t)
    ensures |r| <= |tags|
  {
    if tags == [] then []
    else if Keeps(f, tags[0]) then [tags[0]] + KeptTags(f, tags[1..])
    else KeptTags(f, tags[1..])
  }

  /**
   * The set of kept tags (`BaseTagsExtractor`, `TagsFacetExtractor`), or
   * None when no tag is kept.
   */
  function TagSet(item: Item, f: TagFilter): (r: Value)
    ensures r == VNone || r.VSet?
    ensures r.VSet? ==> r.elems != {} && forall v :: v in r.elems ==> v.VStr?
    ensures forall t: string :: (r.VSet? && VStr(t) in r.elems) <==>
      (t in TagTexts(item.data.tags) && Keeps(f, t))
  {
    var kept := KeptTags(f, TagTexts(item.data.tags));
    var s := set t | t in kept :: VStr(t);
    assert forall t :: VStr(t) in s <==> t in kept;
    if s == {} then VNone
    else VSet(s)
  }

  /**
   * The kept tags, each once, sorted by their normalized sort key and joined
   * by the record separator (`TagsTextExtractor`); None when no tag is kept.
   */
  function TagsText(item: Item, f: TagFilter, env: Env): (r: Value)
    ensures r == VNone <==> TagSet(item, f) == VNone
    ensures r != VNone ==> r.VStr?
  {
    var kept := Dedupe(KeptTags(f, TagTexts(item.data.tags)));
    if kept == [] then
      assert forall t :: !(t in TagTexts(item.data.tags) && Keeps(f, t));
      VNone
    else
      assert kept[0] in TagTexts(item.data.tags) && Keeps(f, kept[0]);
      VStr(Join([RecordSeparator], SortBy(env.sortNormalize, kept)))
  }

  /**
   * Splitting the text field gives every kept tag once, in sort-key order,
   * provided no tag contains the record separator.
   */
  lemma TagsTextSplit(item: Item, f: TagFilter, env: Env)
    requires TagSet(item, f).VSet?
    requires forall t :: t in TagTexts(item.data.tags) ==> RecordSeparator !in t
    ensures TagsText(item, f, env).VStr?
    ensures var parts := Split(RecordSeparator, TagsText(item, f, env).s);
      && SortedBy(env.sortNormalize, parts)
      && (forall t :: t in parts <==> VStr(t) in TagSet(item, f).elems)
      && (forall i, j :: 0 <= i < j < |parts| ==> parts[i] != parts[j])
  {
    var kept := Dedupe(KeptTags(f, TagTexts(item.data.tags)));
    var sorted := SortBy(env.sortNormalize, kept);
    var v :| v in TagSet(item, f).elems;
    assert v.s in kept;
    SortByMembers(env.sortNormalize, kept);
    assert forall i :: 0 <= i < |sorted| ==> RecordSeparator !in sorted[i] by {
      forall i | 0 <= i < |sorted| ensures RecordSeparator !in sorted[i] {
        assert sorted[i] in sorted;
      }
    }
    SplitJoin(RecordSeparator, sorted);
    SortByDistinct(env.sortNormalize, kept);
  }

  /** A pattern anchored at the start of the tag that matches a literal prefix. */
  function PrefixPattern(prefix: string): string -> bool {
    t => prefix <= t
  }

  /**
   * With include pattern `^public` and exclude pattern `^public-internal`,
   * "public-release" is kept and "public-internal-draft" is not.
   */
  lemma PublicTagsExample()
    ensures var f := TagFilter(Some(PrefixPattern("public")), Some(PrefixPattern("public-internal")));
      Keeps(f, "public-release") && !Keeps(f, "public-internal-draft")
  {
    var f := TagFilter(Some(PrefixPattern("public")), Some(PrefixPattern("public-internal")));
    assert "public" <= "public-release";
    assert !("public-internal" <= "public-release") by {
      assert "public-release"[7] != "public-internal"[7];
    }
    assert "public-internal" <= "public-internal-draft";
  }
}

=== FILE: zotero.dfy ===
/**
 * The inputs of extraction: a Zotero item record, the read-only library
 * context, the field specification, and the external helpers the
 * extractors call but whose behaviour lies outside this model.
 */
module Zotero {
  import opened PyValue

  /** One entry of an item's `creators` list. */
  datatype Creator = Creator(
    creatorType: Option<string>,
    name: Option<string>,
    firstName: Option<string>,
    lastName: Option<string>)

  /** One entry of an item's `tags` list. */
  datatype Tag = Tag(tag: Option<string>)

  /** A value of the `relations` dict: a single URI or a list of URIs. */
  datatype Relation = RelStr(uri: string) | RelList(uris: seq<string>)

  /**
   * An item's `data` member. Its plain string fields (itemType, key, title,
   * linkMode, url, note, language, ...) are in `fields`; the structured
   * members have their own components, an absent one being empty.
   */
  datatype Data = Data(
    fields: map<string, string>,
    creators: seq<Creator>,
    tags: seq<Tag>,
    collections: seq<string>,
    relations: map<string, Relation>)

  /** A link of an item's `links` member, e.g. `{"href": ..., "type": ...}`. */
  type Link = map<string, string>

  /**
   * An item as returned by the Zotero API: its key, its other top-level
   * scalar members, `data`, `meta`, `links`, the child items (notes and
   * attachments) and, on an attachment child, its full text.
   */
  datatype Item = Item(
    key: string,
    top: map<string, Value>,
    data: Data,
    meta: map<string, string>,
    links: map<string, Link>,
    children: seq<Item>,
    fulltext: Option<string>)

  /** An entry of an item-type field schema or creator-type schema. */
  type SchemaEntry = map<string, string>

  /** A collection record; only its name is read. */
  datatype Collection = Collection(name: Option<string>)

  /**
   * The library context. `ancestors(k)` is the key path from the top-level
   * collection down to `k` inclusive, and `creatorTypesFor` is
   * `get_creator_types`; neither is part of this model.
   */
  datatype LibraryContext = LibraryContext(
    itemTypes: map<string, string>,
    itemFields: map<string, seq<SchemaEntry>>,
    creatorTypes: map<string, seq<SchemaEntry>>,
    collections: map<string, Collection>,
    ancestors: string -> seq<string>,
    creatorTypesFor: Data -> seq<SchemaEntry>,
    libraryType: string,
    libraryId: string)

  /**
   * A field specification: the document key, the per-value encoder and,
   * for collection facets, the key of the facet's root collection.
   */
  datatype FieldSpec = FieldSpec(key: string, encode: Value -> Value, collectionKey: string)

  /** What `parse_partial_date` returns; month and day are never negative. */
  datatype PartialDate = PartialDate(year: int, month: nat, day: nat)

  /**
   * Helpers the extractors call from other modules and libraries:
   * `richtext_striptags`, `Markup(..).striptags()`, `sort_normalize`,
   * `parse_partial_date`, the iteration order of sets, the two Zotero URI
   * finders, and the substitution of `<br/>` tags by line breaks.
   */
  datatype Env = Env(
    richtextStriptags: string -> string,
    striptags: string -> string,
    sortNormalize: string -> string,
    parseDate: string -> PartialDate,
    order: SetOrder,
    itemIdsInLinks: string -> set<string>,
    itemIdsInText: string -> set<string>,
    breaksToNewlines: string -> string)

  /** `data.get(k)`. */
  function Field(d: Data, k: string): Option<string> {
    Get(d.fields, k)
  }

  /** `data.get(k, default)`. */
  function FieldOr(d: Data, k: string, default: string): string {
    Get(d.fields, k).GetOr(default)
  }

  /** `bool(data.get(k))`: the field is present and not empty. */
  predicate HasText(d: Data, k: string) {
    k in d.fields && d.fields[k] != ""
  }

  /** `data.get("itemType")`. */
  function ItemType(d: Data): Option<string> {
    Field(d, "itemType")
  }
}
